=== FILE: README.md ===
# LTR-C, modelled in Dafny

LTR-C ("left to right C") is a command-line tool. It converts between ordinary
C source, which is read top to bottom, and "LTR" source, which is the same text
written column by column. The conversion is a padded transpose. A file is read
into lines. Then output row `r` holds character `r` of every line in order, with
a space wherever a line is too short, and each row ends in a newline.

The tool has three modes:

- **New-file transpile** (`--transpile`): every `.c`/`.C` argument `x.c` is
  written to `x.ltr`.
- **In-place transpile** (`--transpile --in-place`): every such file is
  overwritten with its own transpose.
- **Compile** (the default): every accepted source (`.c`, `.C`, `.ltr`, `.LTR`,
  `.LTR_C`, `.ltr_c`) is transposed into a fresh staging file. The compiler then
  runs once on one shell command line. On that line each staging file stands
  where its source stood, behind the `--b4` value. Every other non-file argument
  is passed to the compiler unchanged.

Before any file is touched, the leading options are read. Two combinations are
refused with exit code -1: `--set-compiler` together with `--transpile`, and
`--in-place` without `--transpile`. When no compiler was named, one is chosen by
probing gcc, then clang, then `$CC`.

The project has one module per concern:

- `Lines`: splitting text on a separator, and writing parts back, each followed
  by the separator.
- `Transpose`: the transposition engine. `ReadLines` and `Emit` are loops
  proved against the functions `Split`, `MaxWidth` and `Transposed`.
  `TranspileFile` calls the two loops, and is proved against `TransposeText`.
- `Paths`: file-name extensions and the new-file output path.
- `Invoker`: the compiler command line and the exit code.
- `Arguments`: option parsing, the refused combinations and the compiler
  choice.
- `Pipeline`: how the remaining arguments are staged, the three per-mode runs,
  and the whole program (`Program`, implemented by the method `Ltr`).

The file system is a value, `Env`. It records:

- which paths are regular files;
- which paths open in each mode;
- which open files can be reopened for writing;
- what each file holds;
- the staging files the temporary directory hands out.

A run's observable result is an `Outcome`: the exit code, what became of each
task, and the command line executed, if any.

Behaviour of the code worth noting:

- In compile mode the `--b4` value goes in front of *every* staged file, so gcc
  gets `gcc -x c t1 -x c t2`. It is not given once before all of them. The
  tool's own help text says the same ("before every file").
- A help or version request among the leading options wins over a refused
  combination that came before it. The options loop returns before the
  conflict checks run.
- In compile mode a regular file with an extension that is not accepted is
  dropped. It becomes neither a task nor a compiler argument. Only paths that
  are not regular files go to the compiler.
- In new-file mode the output file is opened (and so truncated) before the
  input is checked. A task whose input did not open leaves an empty output file
  (`Emptied`).
- In in-place mode a file named twice is converted twice. The second task reads
  what the first one wrote.

## Model

| member | source | states |
|---|---|---|
| Lines.SplitCount | ltr_c.cpp:118-128 | `Split`, the line reading: every line read uses up at least one character, and a non-empty text gives at least one line |
| Lines.SplitSepFree | ltr_c.cpp:118-128 | no line read from a file contains a newline |
| Lines.SplitTerminated | ltr_c.cpp:118-128 | reading back a text written as newline-terminated lines gives those lines exactly (round trip) |
| Lines.TerminatedSplit | ltr_c.cpp:118-128 | writing the lines read from a text gives the text back, with a final newline added when it lacked one |
| Lines.TerminatedLength | ltr_c.cpp:138-144 | rows of n characters, each followed by a newline, take rows·(n+1) characters |
| Transpose.MaxWidth | ltr_c.cpp:118-128 | the width kept is at least every line's length and equals some line's length (0 with no lines) |
| Transpose.ReadLines | ltr_c.cpp:113-128 | the reading loop yields exactly the newline-split lines of the input (a final unterminated non-empty fragment is a line) and the width of the widest |
| Transpose.Emit | ltr_c.cpp:138-144 | the writing loop emits the padded column-major transpose, one newline-terminated row per column index |
| Transpose.TranspileFile | ltr_c.cpp:112-147 | nothing is written exactly when source and destination are one file and reopening it fails; otherwise the text written is the transpose of the whole input |
| Transpose.TransposedShape | ltr_c.cpp:138-144 | the transpose has MaxWidth rows of one character per line: character r of line c, or a space past its end |
| Transpose.TransposedNoNewline | ltr_c.cpp:138-144 | transposing lines without newlines gives rows without newlines |
| Transpose.TransposeTwice | ltr_c.cpp:138-144 | on a rectangular grid, transposing twice gives the grid back |
| Transpose.TransposeTextTwice | ltr_c.cpp:112-147 | the text of a rectangular grid converted twice is the original text (the conversion and the compile-mode staging undo each other) |
| Transpose.TransposeTextLength | ltr_c.cpp:138-144 | the output is MaxWidth·(lines+1) characters long |
| Transpose.RaggedExample | ltr_c.cpp:138-144 | padding is kept: "abc","de" becomes "ad","be","c " and then "abc","de ", not the original |
| Paths.FileNameShape | ltr_c.cpp:342 | `FileName`, the last path component: it ends the path, holds no '/', and is the whole path or comes right after a '/' |
| Paths.NameExtensionShape | ltr_c.cpp:342 | `NameExtension`: the extension ends the name, starts with '.', and holds no other '.' |
| Paths.DotGivesExtension | ltr_c.cpp:342 | a name with a '.' after its first character, other than "..", has a (non-empty) extension |
| Paths.NameExtensionExamples | ltr_c.cpp:342 | a name whose only '.' is in front, and the names "." and "..", have no extension; "a.b.c" has ".c" |
| Paths.ExtensionShape | ltr_c.cpp:342 | an extension ends the path, starts with its only '.', and contains no '/' |
| Paths.TranspileAccepts | ltr_c.cpp:346 | every extension the transpile modes convert (".c", ".C") is one compile mode stages too |
| Paths.CompileAccepts | ltr_c.cpp:352 | every extension compile mode stages has the shape of an extension: '.', then at least one character, with no other '.' and no '/' |
| Paths.StemExtension | ltr_c.cpp:342 | a plain name (no '.', no '/') followed by anything of that shape has exactly that extension |
| Paths.DirStemExtension | ltr_c.cpp:342 | inside any directory: "dir/stem.ext" with a plain stem has the extension ".ext" |
| Paths.AcceptedExtensionReached | ltr_c.cpp:342-352 | each extension compile mode stages is reached: a plain name followed by it has that extension |
| Paths.CExtension | ltr_c.cpp:342-346 | a plain name followed by ".c" has the extension ".c", which the transpile modes accept |
| Paths.OutputPath | ltr_c.cpp:178 | the output path keeps all but the last character of the input path and ends in "ltr" |
| Paths.OutputPathExamples | ltr_c.cpp:178 | "main.c" is written to "main.ltr", "a.C" to "a.ltr" |
| Paths.OutputFileName | ltr_c.cpp:178 | the output file stays in the input's directory; only the last character of the file name is replaced by "ltr" |
| Paths.OutputPathExtension | ltr_c.cpp:178 | the new-file output of an accepted ".c"/".C" file has extension ".ltr", which compile mode accepts |
| Invoker.CommandShape | ltr_c.cpp:224-228 | `Command`: the command line starts with the compiler name, and every argument takes at least two characters of it |
| Invoker.CommandTerminated | ltr_c.cpp:224-228 | the command line followed by a space is its words (the compiler and the quoted arguments), each followed by a space |
| Invoker.BuildCommand | ltr_c.cpp:224-228 | the loop builds the compiler name followed by a space and each argument in order, an empty one written as "" |
| Invoker.CommandWords | ltr_c.cpp:224-228 | split on spaces, the command line gives back the compiler and every argument in order (when none contains a space) |
| Invoker.CompileCommandExample | ltr_c.cpp:224-228 | two staged files behind "-x c" give "gcc -x c s1 -x c s2" |
| Invoker.ExitCode | ltr_c.cpp:234 | the exit code is the status when the status is at most 255, and -1 otherwise |
| Arguments.Scan | ltr_c.cpp:294-317 | the option scan stops inside the arguments, at the first argument it examines that is not an option (every position examined before the stop held an option) |
| Arguments.ScanStop | ltr_c.cpp:294-317 | for every input: the scan ends at the first examined argument that is not an option, with help or version when that argument asks for them and otherwise stopping there; when every examined argument is an option it consumes all arguments |
| Arguments.ParseOptions | ltr_c.cpp:294-317 | the options loop gives the scan's result: help, version, or the settings and the first remaining argument |
| Arguments.ScanFlag | ltr_c.cpp:294-317 | a flag is set after the scan exactly when it was set before, or the scan met it at an option position (not as the value of "--b4"/"--set-compiler") |
| Arguments.ScanValue | ltr_c.cpp:294-317 | "--set-compiler" and "--b4" keep their setting when the scan never meets them at an option position, and otherwise take the argument after the last occurrence the scan meets |
| Arguments.ScanReadsPrefix | ltr_c.cpp:294-317 | the scan reads nothing after the argument where it stops |
| Arguments.Conflict | ltr_c.cpp:320-327 | settings are refused exactly when a named compiler comes with "--transpile" or "--in-place" comes without it |
| Arguments.SetCompilerWithTranspile | ltr_c.cpp:320-323 | "--set-compiler gcc --transpile" is refused, whatever files follow |
| Arguments.InPlaceWithoutTranspile | ltr_c.cpp:324-327 | "--in-place" without "--transpile" is refused |
| Arguments.HelpBeforeConflict | ltr_c.cpp:307-309 | a help request after conflicting options ends the scan with help |
| Arguments.Probe | ltr_c.cpp:243-268 | gcc is chosen when its probe succeeds, clang when only clang's does, "$CC" otherwise; "-x c" is the prefix exactly for gcc and clang |
| Arguments.ResolveCompiler | ltr_c.cpp:244-268 | without a named compiler, the detected one is used and its prefix appended to "--b4"; a named compiler is kept; no flag changes |
| Pipeline.TranspileStep | ltr_c.cpp:340-349 | `StageStep` in a transpile mode: a regular ".c"/".C" file adds exactly its task, opened for update or not; a path that is not a regular file is appended to the compiler arguments; any other regular file changes nothing |
| Pipeline.CompileStep | ltr_c.cpp:350-359 | `StageStep` in compile mode: a task is added exactly for a regular file with an accepted extension, with the next staging file's handle; the compiler arguments gain that file's "--b4" value and staging path, or the argument itself when it is not a regular file, and nothing for any other regular file |
| Pipeline.StageArgs | ltr_c.cpp:339-365 | staging makes at most one task per remaining argument |
| Pipeline.StageOne | ltr_c.cpp:340-364 | one argument is staged: push, push, push, then swap, which leaves the original path on the task and the staging path among the compiler arguments |
| Pipeline.Stage | ltr_c.cpp:339-365 | the staging loop sorts the remaining arguments into tasks and compiler arguments, in order |
| Pipeline.StageCompileAll | ltr_c.cpp:339-365 | compile mode, any remaining arguments: the tasks are exactly the regular files with an accepted extension, in order, the n-th with the n-th staging file's handle; the compiler arguments are, in order, each non-file argument as it is and, for each accepted source, the "--b4" value and its staging file's path (`CompileArgs`) |
| Pipeline.StageTranspileAll | ltr_c.cpp:339-365 | transpile modes, any remaining arguments: the tasks are exactly the regular ".c"/".C" files, in order, each opened for update or not; the compiler arguments are exactly the paths that are not regular files, in order; other regular files are dropped |
| Pipeline.StageCompileFiles | ltr_c.cpp:352-358 | when every remaining argument is a source compile mode accepts, the n-th source gets the n-th staging file, and the compiler arguments are the "--b4" value and that staging path, file after file |
| Pipeline.InPlaceTask | ltr_c.cpp:159-172 | an in-place task writes exactly when the file opened, debug-only is off and the stream reopens; it writes the file's transpose and never empties a file |
| Pipeline.NewFileTask | ltr_c.cpp:175-195 | a new-file task writes exactly when the input opened, debug-only is off and the output opens; it writes the input's transpose; an output that opened for an input that did not is left empty; no task fails after opening |
| Pipeline.CompileTask | ltr_c.cpp:200-219 | a compile-mode task stages exactly when the original opens for reading and the staging file opened; it writes the original's transpose, and is otherwise skipped |
| Pipeline.InPlaceRun | ltr_c.cpp:158-173 | in-place mode yields one result per task |
| Pipeline.RunInPlace | ltr_c.cpp:158-173 | the in-place loop tries every task in order, passes over a failing one, writes each file's transpose over it, and exits with 0 |
| Pipeline.InPlaceNamedTwice | ltr_c.cpp:158-173 | a rectangular file named twice is converted twice and holds its original text at the end |
| Pipeline.InPlaceDistinct | ltr_c.cpp:158-173 | with no file named twice, each task reads its file as it was before the run |
| Pipeline.InPlaceUntouched | ltr_c.cpp:158-173 | an in-place run leaves every file no task names as it was, and never changes which files can be reopened |
| Pipeline.RunNewFile | ltr_c.cpp:175-196 | the new-file loop tries every task in order: output not opened gives skipped, input not opened gives an emptied output, otherwise the transpose is written; exit 0 |
| Pipeline.FirstFailure | ltr_c.cpp:200-219 | every task before the first failing one is staged, and the first failing one cannot be |
| Pipeline.RunCompile | ltr_c.cpp:198-238 | the compile loop stages tasks in order, stops at the first failure with -1, and otherwise builds and runs the command (unless debug-only) |
| Pipeline.CompileRunsIffAllStaged | ltr_c.cpp:200-238 | the command runs exactly when every task is staged, and then the exit code comes from its status; otherwise the run ends at the first failing task with -1 and nothing after it is tried |
| Pipeline.CompileDebugOnly | ltr_c.cpp:200-237 | debug-only compile mode tries no task, runs nothing and exits with 0 |
| Pipeline.TransposeModesExit | ltr_c.cpp:155-197 | when the options are accepted, the transpose modes exit with 0, run no command, and report one result per task |
| Pipeline.RefusedConflict | ltr_c.cpp:319-327 | for any arguments, options that form a refused combination end the program with -1, no task tried and no command run |
| Pipeline.RefusedBeforeFiles | ltr_c.cpp:320-323 | "--set-compiler gcc --transpile" followed by files ends with -1 before any file is touched |
| Pipeline.InPlaceRefused | ltr_c.cpp:324-327 | "--in-place" without "--transpile", followed by files, ends with -1 before any file is touched |
| Pipeline.Program | ltr_c.cpp:280-375 | a command runs only in compile mode, and then the exit code comes from its status; otherwise the exit code is 0 or -1; no argument gives more than one task |
| Pipeline.CompileTwoFiles | ltr_c.cpp:280-375 | "ltr_c f1 f2" when the probe finds gcc stages both files, runs "gcc -x c t1 -x c t2" and exits with gcc's status |
| Pipeline.Ltr | ltr_c.cpp:280-375 | the program parses the options, rejects conflicts, chooses the compiler, stages the rest and runs the selected mode, as `Program` specifies |

## Left out

- Everything the tool prints is not modelled: the help and version text, every
  diagnostic, and the options dump of `--debug-only`. `--silent` only turns
  that output off, so it is parsed but has no other effect.
- The compiler probe runs `gcc --version` and `clang --version` through popen.
  Their results are inputs to `Arguments.Probe`. `Pipeline.Program` and
  `Pipeline.Ltr` take the probe's result (a `Detected`) as a parameter, so
  they hold for whatever the probe reports; `Pipeline.CompileTwoFiles` is
  stated for the result of `Probe` when gcc is found.
- Staging files come from mkstemp in the temporary directory. They are the
  input sequence `env.staging`: whether each one opened, and its path.
- Pipeline.Program: requires at least as many staging files as arguments,
  because mkstemp is assumed never to run out.
- Pipeline.Ltr: requires at least as many staging files as arguments, for the
  same reason.
- The command is not run. The status `system()` returns is an input. The model
  applies the source's comparison to that status directly and does not take a
  wait status apart.
- Arguments.ParseOptions: requires that a value follows every "--set-compiler"
  and "--b4" the scan reaches. The source reads past the end of the argument
  list there, which is undefined behaviour.
- Arguments.Scan: carries the same precondition.
- Pipeline.Program: carries the same precondition.
- Pipeline.Ltr: carries the same precondition.
- Files are identified by path string. Two different spellings of one file
  (`a.c` and `./a.c`) are two files in the model.
- The files the pipeline writes are reported as results. The model does not
  update `Env` for them, except in in-place mode, where later tasks can read
  them.
- A failed reopen in in-place mode leaves the file's content as it was.
- File handles that are never closed, and the close calls themselves, are not
  modelled.
- Characters are Dafny `char`s, and file contents are sequences of them. Byte
  values and the EOF sentinel of `fgetc` are not modelled.
- The `unsigned` column counter and the `int` exit status are unbounded
  integers in the model.
- The four template instantiations for `--silent` and `--debug-only` are one
  function with a `debugOnly` parameter.
- `std::filesystem::is_regular_file` (ltr_c.cpp:340) throws
  `filesystem_error` when the path cannot be examined for a reason other than
  its absence, such as a directory on the path that cannot be searched or a
  component that is too long. Nothing catches it, so the program aborts
  without exiting with 0, -1 or the command's status. The model treats such a
  path as not a regular file, so it goes to the compiler arguments.
- The `fopen` modes are the sets of `Env`: `readable`, `updatable`,
  `reopenable` and `writable` say which paths open in each mode.

=== FILE: arguments.dfy ===
/**
 * The leading options of the command line, the combinations that are
 * refused, and the compiler chosen when none was named.
 */
module Arguments {

  /** The settings the leading options produce. */
  datatype Options = Options(
    setCompiler: string,
    transpile: bool,
    inPlace: bool,
    silent: bool,
    debugOnly: bool,
    b4: string)

  const Defaults := Options("", false, false, false, false, "")

  /** Where the option scan ends: help or version text requested, or options and the index of the first remaining argument. */
  datatype Parsed = ShowHelp | ShowVersion | Parsed(opt: Options, next: nat)

  predicate TakesValue(a: string)
  {
    a == "--set-compiler" || a == "--b4"
  }

  predicate IsFlag(a: string)
  {
    a == "--transpile" || a == "--in-place" || a == "--silent" || a == "--debug-only"
  }

  predicate IsHelp(a: string)
  {
    a == "--help" || a == "-h"
  }

  predicate IsVersion(a: string)
  {
    a == "--version" || a == "-v"
  }

  predicate Recognised(a: string)
  {
    TakesValue(a) || IsFlag(a) || IsHelp(a) || IsVersion(a)
  }

  /** The setting a flag turns on. */
  function Flag(o: Options, w: string): bool
  {
    if w == "--transpile" then o.transpile
    else if w == "--in-place" then o.inPlace
    else if w == "--silent" then o.silent
    else o.debugOnly
  }

  /** Every "--set-compiler" and "--b4" the scan from `i` reaches has a value after it. */
  predicate ValueFollows(args: seq<string>, i: nat)
    decreases |args| - i
  {
    i >= |args| ||
    if TakesValue(args[i]) then i + 1 < |args| && ValueFollows(args, i + 2)
    else if IsFlag(args[i]) then ValueFollows(args, i + 1)
    else true
  }

  /** Whether the scan from `i` looks at position `j` as a possible option. */
  predicate Examined(args: seq<string>, i: nat, j: nat)
    ensures Examined(args, i, j) ==> i <= j < |args|
    decreases |args| - i
  {
    i < |args| &&
    (j == i ||
     (TakesValue(args[i]) && Examined(args, i + 2, j)) ||
     (IsFlag(args[i]) && Examined(args, i + 1, j)))
  }

  /**
   * The option scan from position `i` with settings `opt`. It stops at the
   * first argument that is not an option: the stop is a position the scan
   * examines, and every position examined before it held an option. Help
   * and version end the program.
   */
  function Scan(args: seq<string>, i: nat, opt: Options): (r: Parsed)
    requires i <= |args| && ValueFollows(args, i)
    ensures r.Parsed? ==> i <= r.next <= |args|
    ensures r.Parsed? && r.next < |args| ==> !Recognised(args[r.next])
    ensures r.Parsed? && r.next < |args| ==> Examined(args, i, r.next)
    decreases |args| - i
  {
    if i == |args| then Parsed(opt, i)
    else
      var a := args[i];
      if a == "--set-compiler" then Scan(args, i + 2, opt.(setCompiler := args[i + 1]))
      else if a == "--transpile" then Scan(args, i + 1, opt.(transpile := true))
      else if a == "--in-place" then Scan(args, i + 1, opt.(inPlace := true))
      else if a == "--silent" then Scan(args, i + 1, opt.(silent := true))
      else if a == "--debug-only" then Scan(args, i + 1, opt.(debugOnly := true))
      else if a == "--b4" then Scan(args, i + 2, opt.(b4 := args[i + 1]))
      else if IsHelp(a) then ShowHelp
      else if IsVersion(a) then ShowVersion
      else Parsed(opt, i)
  }

  /** Reads the leading options, updating the settings one argument at a time. */
  method ParseOptions(args: seq<string>) returns (res: Parsed)
    requires ValueFollows(args, 0)
    ensures res == Scan(args, 0, Defaults)
  {
    var opt := Defaults;
    var arg := 0;
    while arg < |args|
      invariant arg <= |args| && ValueFollows(args, arg)
      invariant Scan(args, arg, opt) == Scan(args, 0, Defaults)
    {
      var a := args[arg];
      if a == "--set-compiler" {
        arg := arg + 1;
        opt := opt.(setCompiler := args[arg]);
      } else if a == "--transpile" {
        opt := opt.(transpile := true);
      } else if a == "--in-place" {
        opt := opt.(inPlace := true);
      } else if a == "--silent" {
        opt := opt.(silent := true);
      } else if a == "--debug-only" {
        opt := opt.(debugOnly := true);
      } else if a == "--b4" {
        arg := arg + 1;
        opt := opt.(b4 := args[arg]);
      } else if a == "--help" || a == "-h" {
        return ShowHelp;
      } else if a == "--version" || a == "-v" {
        return ShowVersion;
      } else {
        break;
      }
      arg := arg + 1;
    }
    res := Parsed(opt, arg);
  }

  /** One option the scan takes: how many arguments it uses and the settings after it. */
  lemma ScanStep(args: seq<string>, i: nat, opt: Options) returns (step: nat, next: Options)
    requires i < |args| && ValueFollows(args, i) && (TakesValue(args[i]) || IsFlag(args[i]))
    ensures step == (if TakesValue(args[i]) then 2 else 1)
    ensures i + step <= |args| && ValueFollows(args, i + step)
    ensures Scan(args, i, opt) == Scan(args, i + step, next)
    ensures forall w :: IsFlag(w) ==> Flag(next, w) == (Flag(opt, w) || args[i] == w)
    ensures next.setCompiler == if args[i] == "--set-compiler" then args[i + 1] else opt.setCompiler
    ensures next.b4 == if args[i] == "--b4" then args[i + 1] else opt.b4
    ensures forall j :: Examined(args, i, j) <==> j == i || Examined(args, i + step, j)
  {
    var a := args[i];
    step := if TakesValue(a) then 2 else 1;
    next := if a == "--set-compiler" then opt.(setCompiler := args[i + 1])
      else if a == "--transpile" then opt.(transpile := true)
      else if a == "--in-place" then opt.(inPlace := true)
      else if a == "--silent" then opt.(silent := true)
      else if a == "--debug-only" then opt.(debugOnly := true)
      else opt.(b4 := args[i + 1]);
  }

  /**
   * A flag is set after the scan exactly when it was set before, or the scan
   * met it at an option position (not as the value of "--b4" or
   * "--set-compiler").
   */
  lemma {:induction false} ScanFlag(args: seq<string>, i: nat, opt: Options, w: string)
    requires IsFlag(w)
    requires i <= |args| && ValueFollows(args, i) && Scan(args, i, opt).Parsed?
    ensures Flag(Scan(args, i, opt).opt, w) <==> Flag(opt, w) || exists j: nat :: Examined(args, i, j) && args[j] == w
    decreases |args| - i
  {
    if i == |args| {
      assert forall j :: !Examined(args, i, j);
    } else if TakesValue(args[i]) || IsFlag(args[i]) {
      var step, next := ScanStep(args, i, opt);
      ScanFlag(args, i + step, next, w);
      FlagStep(args, i, step, w, Flag(opt, w), Flag(next, w), Flag(Scan(args, i, opt).opt, w));
    } else {
      assert forall j :: Examined(args, i, j) ==> j == i;
    }
  }

  /** One step of `ScanFlag`: the option at `i` is followed by the positions examined from `i + step`. */
  lemma FlagStep(args: seq<string>, i: nat, step: nat, w: string, before: bool, after: bool, final: bool)
    requires i < |args| && 0 < step
    requires forall j :: Examined(args, i, j) <==> j == i || Examined(args, i + step, j)
    requires after == (before || args[i] == w)
    requires final <==> after || exists j: nat :: Examined(args, i + step, j) && args[j] == w
    ensures final <==> before || exists j: nat :: Examined(args, i, j) && args[j] == w
  {
    if args[i] == w {
      assert Examined(args, i, i);
    }
    if j: nat :| Examined(args, i + step, j) && args[j] == w {
      assert Examined(args, i, j);
    }
  }

  /** The setting an option with a value sets. */
  function Value(o: Options, key: string): string
  {
    if key == "--b4" then o.b4 else o.setCompiler
  }

  /**
   * An option with a value keeps its setting when the scan never meets it at
   * an option position, and otherwise takes the value after the last such
   * occurrence.
   */
  lemma {:induction false} ScanValue(args: seq<string>, i: nat, opt: Options, key: string)
    requires TakesValue(key)
    requires i <= |args| && ValueFollows(args, i) && Scan(args, i, opt).Parsed?
    ensures (forall j: nat :: Examined(args, i, j) ==> args[j] != key) ==>
      Value(Scan(args, i, opt).opt, key) == Value(opt, key)
    ensures forall j: nat ::
      (Examined(args, i, j) && args[j] == key && forall k: nat :: Examined(args, i, k) && j < k ==> args[k] != key) ==>
        j + 1 < |args| && Value(Scan(args, i, opt).opt, key) == args[j + 1]
    decreases |args| - i
  {
    if i == |args| {
      assert forall j :: !Examined(args, i, j);
    } else if TakesValue(args[i]) || IsFlag(args[i]) {
      var step, next := ScanStep(args, i, opt);
      ScanValue(args, i + step, next, key);
      ValueStep(args, i, step, key, Value(opt, key), Value(next, key), Value(Scan(args, i, opt).opt, key));
    } else {
      assert forall j :: Examined(args, i, j) ==> j == i;
    }
  }

  /** One step of `ScanValue`: the option at `i` is followed by the positions examined from `i + step`. */
  lemma ValueStep(args: seq<string>, i: nat, step: nat, key: string, before: string, after: string, final: string)
    requires i < |args| && 0 < step
    requires forall j :: Examined(args, i, j) <==> j == i || Examined(args, i + step, j)
    requires args[i] == key ==> i + 1 < |args| && after == args[i + 1]
    requires args[i] != key ==> after == before
    requires (forall j: nat :: Examined(args, i + step, j) ==> args[j] != key) ==> final == after
    requires forall j: nat ::
      (Examined(args, i + step, j) && args[j] == key && forall k: nat :: Examined(args, i + step, k) && j < k ==> args[k] != key) ==>
        j + 1 < |args| && final == args[j + 1]
    ensures (forall j: nat :: Examined(args, i, j) ==> args[j] != key) ==> final == before
    ensures forall j: nat ::
      (Examined(args, i, j) && args[j] == key && forall k: nat :: Examined(args, i, k) && j < k ==> args[k] != key) ==>
        j + 1 < |args| && final == args[j + 1]
  {
    assert Examined(args, i, i);
  }

  /**
   * Where the scan ends, for every input: at the first examined argument
   * that is not an option, with help or version when that argument asks
   * for them; past the end when every examined argument is an option.
   */
  lemma {:induction false} ScanStop(args: seq<string>, i: nat, opt: Options)
    requires i <= |args| && ValueFollows(args, i)
    ensures forall j: nat :: Examined(args, i, j) && !(TakesValue(args[j]) || IsFlag(args[j])) ==>
      (IsHelp(args[j]) ==> Scan(args, i, opt) == ShowHelp) &&
      (IsVersion(args[j]) ==> Scan(args, i, opt) == ShowVersion) &&
      (!Recognised(args[j]) ==> Scan(args, i, opt).Parsed? && Scan(args, i, opt).next == j)
    ensures (forall j: nat :: Examined(args, i, j) ==> TakesValue(args[j]) || IsFlag(args[j])) ==>
      Scan(args, i, opt).Parsed? && Scan(args, i, opt).next == |args|
    decreases |args| - i
  {
    if i < |args| && (TakesValue(args[i]) || IsFlag(args[i])) {
      var step, next := ScanStep(args, i, opt);
      ScanStop(args, i + step, next);
    }
  }

  /** The scan reads nothing after the argument it stops at. */
  lemma {:induction false} ScanReadsPrefix(args: seq<string>, other: seq<string>, i: nat, opt: Options)
    requires i <= |args| && ValueFollows(args, i) && Scan(args, i, opt).Parsed?
    requires Scan(args, i, opt).next < |args| && Scan(args, i, opt).next < |other|
    requires args[..Scan(args, i, opt).next + 1] == other[..Scan(args, i, opt).next + 1]
    ensures ValueFollows(other, i) && Scan(other, i, opt) == Scan(args, i, opt)
    decreases |args| - i
  {
    var k := Scan(args, i, opt).next;
    assert args[i] == args[..k + 1][i] == other[..k + 1][i] == other[i];
    var a := args[i];
    if TakesValue(a) {
      assert i + 1 < k;
      assert args[i + 1] == args[..k + 1][i + 1] == other[..k + 1][i + 1] == other[i + 1];
      var next := if a == "--set-compiler" then opt.(setCompiler := args[i + 1]) else opt.(b4 := args[i + 1]);
      ScanReadsPrefix(args, other, i + 2, next);
    } else if IsFlag(a) {
      var next := if a == "--transpile" then opt.(transpile := true)
        else if a == "--in-place" then opt.(inPlace := true)
        else if a == "--silent" then opt.(silent := true)
        else opt.(debugOnly := true);
      ScanReadsPrefix(args, other, i + 1, next);
    }
  }

  /**
   * The combinations refused before any file is touched: a named compiler
   * with "--transpile", or "--in-place" without "--transpile". Without them
   * the settings name exactly one mode.
   */
  function Conflict(o: Options): (bad: bool)
    ensures !bad <==> (o.transpile ==> o.setCompiler == "") && (o.inPlace ==> o.transpile)
  {
    (|o.setCompiler| != 0 && o.transpile) || (!o.transpile && o.inPlace)
  }

  /** "--set-compiler gcc --transpile" is refused, whatever non-option arguments follow. */
  lemma SetCompilerWithTranspile(rest: seq<string>)
    requires rest == [] || !Recognised(rest[0])
    ensures ValueFollows(["--set-compiler", "gcc", "--transpile"] + rest, 0)
    ensures Scan(["--set-compiler", "gcc", "--transpile"] + rest, 0, Defaults).Parsed?
    ensures Conflict(Scan(["--set-compiler", "gcc", "--transpile"] + rest, 0, Defaults).opt)
  {
    var args := ["--set-compiler", "gcc", "--transpile"] + rest;
    assert args[0] == "--set-compiler" && args[1] == "gcc" && args[2] == "--transpile";
    assert ValueFollows(args, 3);
    assert Scan(args, 3, Defaults.(setCompiler := "gcc", transpile := true)).Parsed?;
  }

  /** "--in-place" without "--transpile" is refused. */
  lemma InPlaceWithoutTranspile(rest: seq<string>)
    requires rest == [] || !Recognised(rest[0])
    ensures ValueFollows(["--in-place"] + rest, 0)
    ensures Scan(["--in-place"] + rest, 0, Defaults).Parsed?
    ensures Conflict(Scan(["--in-place"] + rest, 0, Defaults).opt)
  {
    var args := ["--in-place"] + rest;
    assert args[0] == "--in-place";
    assert ValueFollows(args, 1);
    assert Scan(args, 1, Defaults.(inPlace := true)).Parsed?;
  }

  /** A help request after conflicting options ends the scan before the conflict is looked at. */
  lemma HelpBeforeConflict()
    ensures ValueFollows(["--set-compiler", "gcc", "--transpile", "--help"], 0)
    ensures Scan(["--set-compiler", "gcc", "--transpile", "--help"], 0, Defaults) == ShowHelp
  {
  }

  /** What the compiler probe reports: the compiler to use and the prefix to append to "--b4". */
  datatype Detected = Detected(compiler: string, prefix: string)

  /**
   * The compiler probe, given whether "gcc --version" and "clang --version"
   * exit with status 0: gcc is preferred, then clang, both told by "-x c"
   * that the staged files are C; with neither, the shell variable $CC is
   * used with no prefix.
   */
  function Probe(gccFound: bool, clangFound: bool): (d: Detected)
    ensures d.compiler == "gcc" <==> gccFound
    ensures d.compiler == "clang" <==> !gccFound && clangFound
    ensures d.compiler == "$CC" <==> !gccFound && !clangFound
    ensures d.prefix == (if gccFound || clangFound then "-x c" else "")
  {
    if gccFound then Detected("gcc", "-x c")
    else if clangFound then Detected("clang", "-x c")
    else Detected("$CC", "")
  }

  /**
   * When no compiler was named, the detected one is used and its prefix is
   * appended to the "--b4" value; a named compiler is kept and nothing
   * else changes.
   */
  function ResolveCompiler(o: Options, found: Detected): (r: Options)
    ensures o.setCompiler != "" ==> r == o
    ensures o.setCompiler == "" ==> r.setCompiler == found.compiler && r.b4 == o.b4 + found.prefix
    ensures r.transpile == o.transpile && r.inPlace == o.inPlace && r.silent == o.silent && r.debugOnly == o.debugOnly
  {
    if o.setCompiler == "" then o.(setCompiler := found.compiler, b4 := o.b4 + found.prefix) else o
  }
}

=== FILE: invoker.dfy ===
/**
 * The compiler invocation: one shell command line built from the compiler
 * name and the ordered arguments, and the exit code made of the status the
 * command returns.
 */
module Invoker {
  import opened Lines

  /** How an argument is written on the command line: as it is, or as "" when empty. */
  function Quoted(arg: string): string
  {
    if arg == "" then "\"\"" else arg
  }

  function QuotedAll(args: seq<string>): seq<string>
  {
    seq(|args|, i requires 0 <= i < |args| => Quoted(args[i]))
  }

  /** The command line: the compiler, then a space and each argument in order, an empty one as "". */
  function Command(compiler: string, args: seq<string>): string
  {
    if args == [] then compiler
    else Command(compiler, args[..|args| - 1]) + " " + Quoted(args[|args| - 1])
  }

  /** The command line starts with the compiler name, and every argument takes at least two characters of it. */
  lemma {:induction false} CommandShape(compiler: string, args: seq<string>)
    ensures |Command(compiler, args)| >= |compiler| + 2 * |args|
    ensures Command(compiler, args)[..|compiler|] == compiler
    decreases |args|
  {
    if args != [] {
      var init := args[..|args| - 1];
      CommandShape(compiler, init);
      var c := Command(compiler, init);
      assert (c + " " + Quoted(args[|args| - 1]))[..|compiler|] == c[..|compiler|];
    }
  }

  /** Appends the arguments to the compiler name one at a time. */
  method BuildCommand(compiler: string, args: seq<string>) returns (command: string)
    ensures command == Command(compiler, args)
  {
    command := compiler;
    for i := 0 to |args|
      invariant command == Command(compiler, args[..i])
    {
      var arg := args[i];
      if |arg| != 0 {
        command := command + " " + arg;
      } else {
        command := command + " \"\"";
      }
      assert args[..i + 1][..i] == args[..i];
    }
    assert args[..|args|] == args;
  }

  /** The command line followed by a space is its words, each followed by a space. */
  lemma {:induction false} CommandTerminated(compiler: string, args: seq<string>)
    ensures Command(compiler, args) + " " == Terminated([compiler] + QuotedAll(args), ' ')
    decreases |args|
  {
    if args == [] {
      assert [compiler] + QuotedAll(args) == [compiler];
      assert Terminated([compiler], ' ') == compiler + [' '] + Terminated([], ' ');
    } else {
      var init := args[..|args| - 1];
      var last := args[|args| - 1];
      CommandTerminated(compiler, init);
      TerminatedAppend([compiler] + QuotedAll(init), Quoted(last), ' ');
      assert [compiler] + QuotedAll(args) == ([compiler] + QuotedAll(init)) + [Quoted(last)];
    }
  }

  /**
   * The command line keeps every argument as one word, in order: split on
   * spaces, it gives back the compiler and the arguments, each empty one as
   * "", as long as none of them holds a space itself.
   */
  lemma CommandWords(compiler: string, args: seq<string>)
    requires ' ' !in compiler
    requires forall i :: 0 <= i < |args| ==> ' ' !in args[i]
    ensures Split(Command(compiler, args) + " ", ' ') == [compiler] + QuotedAll(args)
  {
    CommandTerminated(compiler, args);
    var quoted := QuotedAll(args);
    QuotedSpaceFree(args);
    var words := [compiler] + quoted;
    forall w | w in words
      ensures ' ' !in w
    {
      var i :| 0 <= i < |words| && words[i] == w;
      if i > 0 {
        assert w == quoted[i - 1];
      }
    }
    SplitTerminated(words, ' ');
  }

  /** Quoting adds no space. */
  lemma QuotedSpaceFree(args: seq<string>)
    requires forall i :: 0 <= i < |args| ==> ' ' !in args[i]
    ensures forall i :: 0 <= i < |QuotedAll(args)| ==> ' ' !in QuotedAll(args)[i]
  {
  }

  /** Two staged files behind the "-x c" prefix, as compile mode arranges them for gcc. */
  lemma CompileCommandExample(staged1: string, staged2: string)
    requires staged1 != "" && staged2 != ""
    ensures Command("gcc", ["-x c", staged1, "-x c", staged2]) == "gcc -x c " + staged1 + " -x c " + staged2
  {
    var args := ["-x c", staged1, "-x c", staged2];
    assert args[..1] == ["-x c"] && args[..1][..0] == [];
    assert Command("gcc", args[..1]) == "gcc -x c";
    assert args[..2][..1] == args[..1];
    assert Command("gcc", args[..2]) == "gcc -x c " + staged1;
    assert args[..3][..2] == args[..2];
    assert Command("gcc", args[..3]) == "gcc -x c " + staged1 + " -x c";
    assert args[..3] == args[..|args| - 1];
  }

  /** The program's exit code for the command's status: the status when at most 255, -1 above. */
  function ExitCode(status: int): (code: int)
    ensures code <= 255
    ensures code == status <==> status <= 255
    ensures code != status ==> code == -1
  {
    if status <= 255 then status else -1
  }
}

=== FILE: lines.dfy ===
/**
 * Splitting a character stream into separator-terminated parts, and the
 * inverse rendering. The transposition engine splits file contents on '\n';
 * the same rule, with ' ' as separator, reads a compiler command back into
 * its words.
 */
module Lines {

  /** Index of the first `sep` in `s`, or |s| when `s` holds none. */
  function IndexOf(s: seq<char>, sep: char): (k: nat)
    ensures k <= |s|
    ensures k < |s| ==> s[k] == sep
  {
    if s == [] then 0
    else if s[0] == sep then 0
    else 1 + IndexOf(s[1..], sep)
  }

  /** No `sep` comes before the one IndexOf finds. */
  lemma {:induction false} IndexOfFirst(s: seq<char>, sep: char)
    ensures forall i :: 0 <= i < IndexOf(s, sep) ==> s[i] != sep
    decreases |s|
  {
    if s != [] && s[0] != sep {
      IndexOfFirst(s[1..], sep);
      assert forall i :: 1 <= i < |s| ==> s[i] == s[1..][i - 1];
    }
  }

  /**
   * The parts of `s`: every `sep` ends a part (an empty one too), and a
   * trailing fragment without a final `sep` is a part only when non-empty.
   */
  function Split(s: seq<char>, sep: char): (parts: seq<seq<char>>)
    decreases |s|
  {
    if s == [] then []
    else
      var k := IndexOf(s, sep);
      if k == |s| then [s] else [s[..k]] + Split(s[k + 1..], sep)
  }

  /** Every part uses up at least one character, and a non-empty text has at least one part. */
  lemma {:induction false} SplitCount(s: seq<char>, sep: char)
    ensures |Split(s, sep)| <= |s|
    ensures s != [] ==> Split(s, sep) != []
    decreases |s|
  {
    if s != [] {
      var k := IndexOf(s, sep);
      if k < |s| {
        SplitCount(s[k + 1..], sep);
      }
    }
  }

  /** No part of a split holds the separator. */
  lemma {:induction false} SplitSepFree(s: seq<char>, sep: char)
    ensures forall i :: 0 <= i < |Split(s, sep)| ==> sep !in Split(s, sep)[i]
    decreases |s|
  {
    if s != [] {
      var k := IndexOf(s, sep);
      IndexOfFirst(s, sep);
      if k < |s| {
        SplitSepFree(s[k + 1..], sep);
        assert forall i :: 0 <= i < k ==> s[..k][i] == s[i];
      } else {
        assert forall i :: 0 <= i < |s| ==> s[i] != sep;
      }
    }
  }

  /** Every part followed by `sep`, concatenated. */
  function Terminated(parts: seq<seq<char>>, sep: char): seq<char>
  {
    if parts == [] then [] else parts[0] + [sep] + Terminated(parts[1..], sep)
  }

  /** The first part of `p + [sep] + rest` ends where `p` ends. */
  lemma IndexOfAfterPart(p: seq<char>, rest: seq<char>, sep: char)
    requires sep !in p
    ensures IndexOf(p + [sep] + rest, sep) == |p|
  {
    var s := p + [sep] + rest;
    IndexOfFirst(s, sep);
    assert s[|p|] == sep;
    assert forall i :: 0 <= i < |p| ==> s[i] == p[i];
  }

  /** Splitting a separator-free buffer followed by a separator ends one part there. */
  lemma SplitAtSep(buffer: seq<char>, rest: seq<char>, sep: char)
    requires sep !in buffer
    requires rest != [] && rest[0] == sep
    ensures Split(buffer + rest, sep) == [buffer] + Split(rest[1..], sep)
  {
    assert buffer + rest == buffer + [sep] + rest[1..];
    IndexOfAfterPart(buffer, rest[1..], sep);
    var s := buffer + rest;
    assert s[..|buffer|] == buffer;
    assert s[|buffer| + 1..] == rest[1..];
  }

  /** A separator-free fragment is one part, or none when empty. */
  lemma SplitFragment(buffer: seq<char>, sep: char)
    requires sep !in buffer
    ensures Split(buffer, sep) == if buffer == [] then [] else [buffer]
  {
    if buffer != [] {
      assert forall i :: 0 <= i < |buffer| ==> buffer[i] in buffer;
    }
  }

  /** Splitting the rendering of separator-free parts gives the parts back. */
  lemma {:induction false} SplitTerminated(parts: seq<seq<char>>, sep: char)
    requires forall p :: p in parts ==> sep !in p
    ensures Split(Terminated(parts, sep), sep) == parts
  {
    if parts != [] {
      assert parts[0] in parts;
      SplitPart(parts[0], Terminated(parts[1..], sep), sep);
      assert forall p :: p in parts[1..] ==> p in parts;
      SplitTerminated(parts[1..], sep);
      assert parts == [parts[0]] + parts[1..];
    }
  }

  /** A separator-free part followed by a separator is the first part of the split. */
  lemma SplitPart(p: seq<char>, rest: seq<char>, sep: char)
    requires sep !in p
    ensures Split(p + [sep] + rest, sep) == [p] + Split(rest, sep)
  {
    var s := p + [sep] + rest;
    IndexOfAfterPart(p, rest, sep);
    assert s[..|p|] == p;
    assert s[|p| + 1..] == rest;
  }

  /**
   * Rendering the parts of `s` gives `s` back, with one separator added when
   * `s` ends in an unterminated fragment.
   */
  lemma {:induction false} TerminatedSplit(s: seq<char>, sep: char)
    ensures Terminated(Split(s, sep), sep) == if s == [] || s[|s| - 1] == sep then s else s + [sep]
    decreases |s|
  {
    if s != [] {
      var k := IndexOf(s, sep);
      if k == |s| {
        TerminatedFragment(s, sep);
      } else {
        TerminatedSplit(s[k + 1..], sep);
        TerminatedSplitStep(s, sep);
        ClosedStep(s, k, sep);
      }
    }
  }

  /** Closing `s` with a separator after its k-th character, a separator, closes the text after it. */
  lemma ClosedStep(s: seq<char>, k: nat, sep: char)
    requires k < |s| && s[k] == sep
    ensures var tail := s[k + 1..];
      (if s[|s| - 1] == sep then s else s + [sep]) ==
      s[..k] + [sep] + (if tail == [] || tail[|tail| - 1] == sep then tail else tail + [sep])
  {
    var tail := s[k + 1..];
    assert s == s[..k] + [sep] + tail;
    if tail != [] {
      assert s[|s| - 1] == tail[|tail| - 1];
    }
  }

  /** A text without a separator is one part, rendered with a separator added. */
  lemma TerminatedFragment(s: seq<char>, sep: char)
    requires s != [] && IndexOf(s, sep) == |s|
    ensures Terminated(Split(s, sep), sep) == s + [sep] && s[|s| - 1] != sep
  {
    IndexOfFirst(s, sep);
    assert Split(s, sep) == [s];
    assert Terminated([s], sep) == s + [sep] + Terminated([], sep);
  }

  /** Rendering the parts of `s` is its first part, a separator, and the rendering of the rest. */
  lemma TerminatedSplitStep(s: seq<char>, sep: char)
    requires s != [] && IndexOf(s, sep) < |s|
    ensures var k := IndexOf(s, sep);
      s == s[..k] + [sep] + s[k + 1..] &&
      Terminated(Split(s, sep), sep) == s[..k] + [sep] + Terminated(Split(s[k + 1..], sep), sep)
  {
    var k := IndexOf(s, sep);
    var tail := s[k + 1..];
    assert Split(s, sep) == [s[..k]] + Split(tail, sep);
    assert ([s[..k]] + Split(tail, sep))[1..] == Split(tail, sep);
    assert s == s[..k] + [sep] + tail;
  }

  /** Rendering one more part appends it and its separator. */
  lemma {:induction false} TerminatedAppend(parts: seq<seq<char>>, p: seq<char>, sep: char)
    ensures Terminated(parts + [p], sep) == Terminated(parts, sep) + p + [sep]
  {
    if parts == [] {
      assert [] + [p] == [p];
    } else {
      assert (parts + [p])[0] == parts[0];
      assert (parts + [p])[1..] == parts[1..] + [p];
      TerminatedAppend(parts[1..], p, sep);
    }
  }

  /** Rendering parts of one common length n takes |parts| * (n + 1) characters. */
  lemma {:induction false} TerminatedLength(parts: seq<seq<char>>, n: nat, sep: char)
    requires forall i :: 0 <= i < |parts| ==> |parts[i]| == n
    ensures |Terminated(parts, sep)| == |parts| * (n + 1)
  {
    if parts != [] {
      assert |parts[0]| == n;
      TerminatedLength(parts[1..], n, sep);
      assert |parts| * (n + 1) == (|parts| - 1) * (n + 1) + n + 1;
    }
  }
}

=== FILE: optional.dfy ===
/** An optional value: a file handle that did or did not open, a command that did or did not run. */
module Optional {
  datatype Option<+T> = None | Some(value: T)
}

=== FILE: paths.dfy ===
/**
 * The path rules of the pipeline: the extension that selects the files each
 * mode converts, and the name of the file a new-file transposition writes.
 */
module Paths {

  /** Index of the last `ch` in `s`, or -1 when `s` holds none. */
  function LastIndex(s: seq<char>, ch: char): (k: int)
    ensures -1 <= k < |s|
    ensures k >= 0 ==> s[k] == ch
  {
    if s == [] then -1
    else if s[|s| - 1] == ch then |s| - 1
    else LastIndex(s[..|s| - 1], ch)
  }

  /** No `ch` comes after the one LastIndex finds. */
  lemma {:induction false} LastIndexLast(s: seq<char>, ch: char)
    ensures forall i :: LastIndex(s, ch) < i < |s| ==> s[i] != ch
    decreases |s|
  {
    if s != [] && s[|s| - 1] != ch {
      LastIndexLast(s[..|s| - 1], ch);
    }
  }

  /** The last component of a path: everything after its last '/'. */
  function FileName(path: string): string
  {
    path[LastIndex(path, '/') + 1..]
  }

  /**
   * The extension of a file name as std::filesystem gives it: the name from
   * its last '.' on; empty when the name is "." or "..", has no '.', or has
   * its only '.' in front.
   */
  function NameExtension(name: string): string
  {
    if name == "." || name == ".." then ""
    else
      var k := LastIndex(name, '.');
      if k <= 0 then "" else name[k..]
  }

  /** The extension of a path: that of its last component. */
  function Extension(path: string): string
  {
    NameExtension(FileName(path))
  }

  /** A file name ends its path, holds no '/', and is the whole path or comes right after a '/'. */
  lemma FileNameShape(path: string)
    ensures |FileName(path)| <= |path| && FileName(path) == path[|path| - |FileName(path)|..]
    ensures '/' !in FileName(path)
    ensures |FileName(path)| == |path| || path[|path| - |FileName(path)| - 1] == '/'
  {
    var j := LastIndex(path, '/');
    LastIndexLast(path, '/');
    var name := path[j + 1..];
    forall i | 0 <= i < |name|
      ensures name[i] != '/'
    {
      assert name[i] == path[j + 1 + i];
    }
  }

  /** The extension of a name ends the name and starts with its only '.'. */
  lemma NameExtensionShape(name: string)
    ensures |NameExtension(name)| <= |name| && NameExtension(name) == name[|name| - |NameExtension(name)|..]
    ensures NameExtension(name) != [] ==> NameExtension(name)[0] == '.' && '.' !in NameExtension(name)[1..]
  {
    var k := LastIndex(name, '.');
    LastIndexLast(name, '.');
    var ext := NameExtension(name);
    if ext != [] {
      assert ext == name[k..];
      forall i | 0 <= i < |ext| - 1
        ensures ext[1..][i] != '.'
      {
        assert ext[1..][i] == name[k + 1 + i];
      }
    }
  }

  /** The edge cases: a name starting with its only '.', the names "." and "..", and a name with two dots. */
  lemma NameExtensionExamples()
    ensures NameExtension(".profile") == ""
    ensures NameExtension(".") == "" && NameExtension("..") == ""
    ensures NameExtension("a.b.c") == ".c"
  {
    LastIndexAppend(".", "profile", '.');
    assert "." + "profile" == ".profile";
    LastIndexAppend("a.b.", "c", '.');
    assert "a.b." + "c" == "a.b.c";
  }

  /** A name with a '.' after its first character, other than "..", has an extension. */
  lemma DotGivesExtension(name: string, k: nat)
    requires 0 < k < |name| && name[k] == '.' && name != ".."
    ensures NameExtension(name) != []
  {
    LastIndexLast(name, '.');
  }

  /** An extension ends the path, starts with its only '.', and holds no '/'. */
  lemma ExtensionShape(path: string)
    ensures |Extension(path)| <= |path| && Extension(path) == path[|path| - |Extension(path)|..]
    ensures Extension(path) != [] ==>
      Extension(path)[0] == '.' && '.' !in Extension(path)[1..] && '/' !in Extension(path)
  {
    var name := FileName(path);
    FileNameShape(path);
    NameExtensionShape(name);
    var ext := NameExtension(name);
    SuffixOfSuffix(path, name, ext);
  }

  /** A suffix of a suffix is a suffix, and holds only characters of the middle one. */
  lemma SuffixOfSuffix(path: string, name: string, ext: string)
    requires |name| <= |path| && name == path[|path| - |name|..]
    requires |ext| <= |name| && ext == name[|name| - |ext|..]
    ensures ext == path[|path| - |ext|..]
    ensures forall x :: x in ext ==> x in name
  {
    forall x | x in ext
      ensures x in name
    {
      var i :| 0 <= i < |ext| && ext[i] == x;
      assert name[|name| - |ext| + i] == x;
    }
  }

  /** Extensions the transpile modes convert; compile mode stages each of them too. */
  predicate TranspileAccepts(ext: string)
    ensures TranspileAccepts(ext) ==> CompileAccepts(ext) && |ext| == 2
  {
    ext == ".c" || ext == ".C"
  }

  /**
   * Extensions compile mode stages for the compiler. Each has the shape of
   * an extension: a '.', then at least one character, none of them '.' or '/'.
   */
  predicate CompileAccepts(ext: string)
    ensures CompileAccepts(ext) ==> ExtensionLike(ext)
  {
    ext == ".c" || ext == ".C" || ext == ".ltr" || ext == ".LTR" || ext == ".LTR_C" || ext == ".ltr_c"
  }

  /**
   * Where a new-file transposition writes: the path without its last
   * character, followed by "ltr". An empty path gives "ltr".
   */
  function OutputPath(path: string): (out: string)
    ensures |out| == if path == [] then 3 else |path| + 2
    ensures out[|out| - 3..] == "ltr"
    ensures forall i :: 0 <= i < |path| - 1 ==> out[i] == path[i]
  {
    (if path == [] then "" else path[..|path| - 1]) + "ltr"
  }

  lemma OutputPathExamples()
    ensures OutputPath("main.c") == "main.ltr"
    ensures OutputPath("a.C") == "a.ltr"
  {
  }

  /** Appending characters other than `ch` leaves the last `ch` where it was. */
  lemma {:induction false} LastIndexAppend(s: seq<char>, t: seq<char>, ch: char)
    requires ch !in t
    ensures LastIndex(s + t, ch) == LastIndex(s, ch)
    decreases |t|
  {
    if t != [] {
      var u := t[..|t| - 1];
      var st := s + t;
      assert st[|st| - 1] == t[|t| - 1];
      assert t[|t| - 1] in t;
      assert st[..|st| - 1] == s + u;
      assert LastIndex(st, ch) == LastIndex(s + u, ch);
      assert forall x :: x in u ==> x in t;
      LastIndexAppend(s, u, ch);
    } else {
      assert s + t == s;
    }
  }

  /** The output path keeps the directory and replaces the last character of the file name by "ltr". */
  lemma OutputFileName(path: string)
    requires path != [] && path[|path| - 1] != '/'
    ensures FileName(OutputPath(path)) == FileName(path)[..|FileName(path)| - 1] + "ltr"
  {
    var n := |path|;
    var stem := path[..n - 1];
    assert path == stem + [path[n - 1]];
    LastIndexAppend(stem, [path[n - 1]], '/');
    LastIndexAppend(stem, "ltr", '/');
    var j := LastIndex(stem, '/');
    assert FileName(path) == stem[j + 1..] + [path[n - 1]];
    assert FileName(OutputPath(path)) == stem[j + 1..] + "ltr";
  }

  /** A file name ending in '.' and one character, with more before the dot, has that two-character extension. */
  lemma ShortExtension(name: seq<char>, x: char)
    requires |name| >= 3 && name[|name| - 2] == '.' && x != '.'
    ensures LastIndex(name[..|name| - 1] + [x], '.') == |name| - 2
  {
    var stem := name[..|name| - 1];
    assert stem[|stem| - 1] == '.';
    assert LastIndex(stem, '.') == |stem| - 1;
    LastIndexAppend(stem, [x], '.');
  }

  /** A name with the extension ".c" or ".C" has something before the dot. */
  lemma AcceptedName(name: string)
    requires TranspileAccepts(NameExtension(name))
    ensures |name| >= 3 && name[|name| - 2] == '.' && name[|name| - 1] != '.' && name[|name| - 1] != '/'
  {
    var k := LastIndex(name, '.');
    assert k > 0 && name[k..] == NameExtension(name);
  }

  /** Replacing the last character of such a name by "ltr" gives the extension ".ltr". */
  lemma LtrNameExtension(name: string)
    requires |name| >= 3 && name[|name| - 2] == '.'
    ensures NameExtension(name[..|name| - 1] + "ltr") == ".ltr"
  {
    var stem := name[..|name| - 1];
    var out := stem + "ltr";
    ShortExtension(name, 'l');
    assert out == (stem + ['l']) + "tr";
    LastIndexAppend(stem + ['l'], "tr", '.');
    assert LastIndex(out, '.') == |name| - 2;
    assert out[|name| - 2..] == ".ltr";
  }

  /** A '.' followed by at least one character, with no other '.' and no '/'. */
  predicate ExtensionLike(ext: string)
  {
    |ext| >= 2 && ext[0] == '.' && '.' !in ext[1..] && '/' !in ext
  }

  /**
   * A plain name (no '.' and no '/') followed by anything of the shape of
   * an extension has exactly that extension.
   */
  lemma StemExtension(stem: string, ext: string)
    requires stem != [] && '.' !in stem && '/' !in stem
    requires ExtensionLike(ext)
    ensures Extension(stem + ext) == ext
  {
    var path := stem + ext;
    assert '/' !in path by {
      assert forall i :: 0 <= i < |path| ==> path[i] == (if i < |stem| then stem[i] else ext[i - |stem|]);
    }
    LastIndexAppend([], path, '/');
    assert FileName(path) == path;
    LastIndexAppend(stem + ['.'], ext[1..], '.');
    assert path == (stem + ['.']) + ext[1..];
    assert LastIndex(stem + ['.'], '.') == |stem|;
    assert path[|stem|..] == ext;
  }

  /** In a directory too: the extension of "dir/stem.ext" is ".ext" for a plain stem. */
  lemma DirStemExtension(dir: string, stem: string, ext: string)
    requires stem != [] && '.' !in stem && '/' !in stem
    requires ExtensionLike(ext)
    ensures Extension(dir + "/" + stem + ext) == ext
  {
    var name := stem + ext;
    assert '/' !in name by {
      assert forall i :: 0 <= i < |name| ==> name[i] == (if i < |stem| then stem[i] else ext[i - |stem|]);
    }
    var path := dir + "/" + stem + ext;
    assert path == (dir + "/") + name;
    LastIndexAppend(dir + "/", name, '/');
    assert LastIndex(dir + "/", '/') == |dir|;
    assert FileName(path) == name;
    StemExtension(stem, ext);
    LastIndexAppend([], name, '/');
    assert [] + name == name;
  }

  /** Every extension compile mode stages is the extension of a plain name followed by it. */
  lemma AcceptedExtensionReached(stem: string, ext: string)
    requires stem != [] && '.' !in stem && '/' !in stem
    requires CompileAccepts(ext)
    ensures Extension(stem + ext) == ext
  {
    StemExtension(stem, ext);
  }

  /** A plain name followed by ".c" has the extension ".c". */
  lemma CExtension(stem: string)
    requires stem != [] && '.' !in stem && '/' !in stem
    ensures Extension(stem + ".c") == ".c"
  {
    StemExtension(stem, ".c");
  }

  /**
   * A file the transpile modes convert is written under a name compile mode
   * stages: the output of "x.c" or "x.C" has the extension ".ltr".
   */
  lemma OutputPathExtension(path: string)
    requires TranspileAccepts(Extension(path))
    ensures Extension(OutputPath(path)) == ".ltr"
    ensures CompileAccepts(Extension(OutputPath(path)))
  {
    var name := FileName(path);
    AcceptedName(name);
    assert path[|path| - 1] == name[|name| - 1];
    OutputFileName(path);
    LtrNameExtension(name);
  }
}

=== FILE: pipeline.dfy ===
/**
 * The file pipeline: the remaining arguments are sorted into files to
 * convert and arguments for the compiler, then every file is converted in
 * the mode the options select, and in compile mode the compiler is run on
 * the staged copies. The file system is the value `env`: which paths open,
 * what they hold, and the staging files the temporary directory hands out.
 */
module Pipeline {
  import opened Optional
  import opened Lines
  import opened Transpose
  import opened Paths
  import opened Invoker
  import opened Arguments

  /** A staging file as the temporary directory creates it: its handle opened or not, and its path. */
  datatype TmpFile = TmpFile(isOpen: bool, path: string)

  datatype Env = Env(
    regular: set<string>,           // paths that name a regular file
    updatable: set<string>,         // paths that open for reading and writing
    readable: set<string>,          // paths that open for reading
    writable: set<string>,          // paths that open (creating or truncating) for writing
    reopenable: set<string>,        // files whose open stream can be reopened for writing
    contents: map<string, seq<char>>,
    staging: seq<TmpFile>)          // the staging files, in the order they are created

  function Content(env: Env, path: string): seq<char>
  {
    if path in env.contents then env.contents[path] else []
  }

  /** A task: a file handle that did or did not open, and a path. */
  datatype Entry = Entry(isOpen: bool, path: string)

  /** What the staging of the remaining arguments produces: the tasks and the compiler arguments. */
  datatype Staged = Staged(entries: seq<Entry>, args: seq<string>)

  /**
   * The staging of one remaining argument `a` after `s`. A path that is not
   * a regular file goes to the compiler arguments. A regular file whose
   * extension the mode accepts becomes a task: in a transpile mode with the
   * file opened for update; in compile mode with the next staging file,
   * whose path goes to the compiler arguments after the "--b4" value. Any
   * other regular file is dropped.
   */
  function StageStep(o: Options, s: Staged, a: string, env: Env): Staged
    requires |s.entries| < |env.staging|
  {
    if a !in env.regular then Staged(s.entries, s.args + [a])
    else if o.transpile then
      if TranspileAccepts(Extension(a)) then Staged(s.entries + [Entry(a in env.updatable, a)], s.args) else s
    else if CompileAccepts(Extension(a)) then
      var t := env.staging[|s.entries|];
      Staged(s.entries + [Entry(t.isOpen, a)], s.args + [o.b4, t.path])
    else s
  }

  /** The staging of the remaining arguments `rest`, one at a time, in order. */
  function StageArgs(o: Options, rest: seq<string>, env: Env): (s: Staged)
    requires |rest| <= |env.staging|
    ensures |s.entries| <= |rest|
    decreases |rest|
  {
    if rest == [] then Staged([], [])
    else StageStep(o, StageArgs(o, rest[..|rest| - 1], env), rest[|rest| - 1], env)
  }

  /**
   * Stages one argument. In compile mode the staging file's entry is pushed
   * with its own path, the "--b4" value and the original path go to the
   * arguments, and the two paths are then swapped.
   */
  method StageOne(o: Options, entries: seq<Entry>, nativeArgs: seq<string>, a: string, env: Env)
    returns (entries': seq<Entry>, nativeArgs': seq<string>)
    requires |entries| < |env.staging|
    ensures Staged(entries', nativeArgs') == StageStep(o, Staged(entries, nativeArgs), a, env)
  {
    entries', nativeArgs' := entries, nativeArgs;
    if a in env.regular {
      var ext := Extension(a);
      if o.transpile {
        if TranspileAccepts(ext) {
          entries' := entries' + [Entry(a in env.updatable, a)];
        }
      } else if CompileAccepts(ext) {
        var t := env.staging[|entries'|];
        entries' := entries' + [Entry(t.isOpen, t.path)];
        nativeArgs' := nativeArgs' + [o.b4];
        nativeArgs' := nativeArgs' + [a];
        var last := |entries'| - 1;
        var tmpPath := entries'[last].path;
        entries' := entries'[last := entries'[last].(path := nativeArgs'[|nativeArgs'| - 1])];
        nativeArgs' := nativeArgs'[|nativeArgs'| - 1 := tmpPath];
        assert entries' == entries + [Entry(t.isOpen, a)];
        assert nativeArgs' == nativeArgs + [o.b4, t.path];
      }
    } else {
      nativeArgs' := nativeArgs' + [a];
    }
  }

  /** Sorts the remaining arguments into tasks and compiler arguments, in order. */
  method Stage(o: Options, rest: seq<string>, env: Env) returns (entries: seq<Entry>, nativeArgs: seq<string>)
    requires |rest| <= |env.staging|
    ensures Staged(entries, nativeArgs) == StageArgs(o, rest, env)
  {
    entries, nativeArgs := [], [];
    for i := 0 to |rest|
      invariant Staged(entries, nativeArgs) == StageArgs(o, rest[..i], env)
    {
      assert rest[..i + 1][..i] == rest[..i] && rest[..i + 1][i] == rest[i];
      entries, nativeArgs := StageOne(o, entries, nativeArgs, rest[i], env);
    }
    assert rest[..|rest|] == rest;
  }

  /** The compiler arguments of `n` staged files: the "--b4" value and the staging path, file after file. */
  function StagedArgs(b4: string, staging: seq<TmpFile>, n: nat): seq<string>
    requires n <= |staging|
  {
    if n == 0 then [] else StagedArgs(b4, staging, n - 1) + [b4, staging[n - 1].path]
  }

  /** A remaining argument that compile mode stages. */
  predicate CompileFile(a: string, env: Env)
  {
    a in env.regular && CompileAccepts(Extension(a))
  }

  /** One compile-mode file: a task with the next staging file, and two compiler arguments. */
  lemma StageCompileStep(o: Options, s: Staged, a: string, env: Env)
    requires !o.transpile && CompileFile(a, env) && |s.entries| < |env.staging|
    ensures StageStep(o, s, a, env) ==
      Staged(s.entries + [Entry(env.staging[|s.entries|].isOpen, a)], s.args + [o.b4, env.staging[|s.entries|].path])
  {
  }

  /** The last remaining argument, a compile-mode file, adds one task and two compiler arguments. */
  lemma StageCompileLast(o: Options, rest: seq<string>, env: Env)
    requires !o.transpile && 0 < |rest| <= |env.staging| && CompileFile(rest[|rest| - 1], env)
    ensures var n := |rest| - 1; var before := StageArgs(o, rest[..n], env);
      StageArgs(o, rest, env) ==
        Staged(before.entries + [Entry(env.staging[|before.entries|].isOpen, rest[n])],
               before.args + [o.b4, env.staging[|before.entries|].path])
  {
    StageArgsUnfold(o, rest, env);
    var n := |rest| - 1;
    StageCompileStep(o, StageArgs(o, rest[..n], env), rest[n], env);
  }

  lemma StageArgsUnfold(o: Options, rest: seq<string>, env: Env)
    requires 0 < |rest| <= |env.staging|
    ensures StageArgs(o, rest, env) == StageStep(o, StageArgs(o, rest[..|rest| - 1], env), rest[|rest| - 1], env)
  {
  }

  /** The tasks of `n` staged files: the i-th file with the i-th staging file's handle. */
  function StagedEntries(staging: seq<TmpFile>, files: seq<string>): seq<Entry>
    requires |files| <= |staging|
  {
    seq(|files|, i requires 0 <= i < |files| => Entry(staging[i].isOpen, files[i]))
  }

  lemma StagedEntriesAppend(staging: seq<TmpFile>, files: seq<string>)
    requires 0 < |files| <= |staging|
    ensures StagedEntries(staging, files) ==
      StagedEntries(staging, files[..|files| - 1]) + [Entry(staging[|files| - 1].isOpen, files[|files| - 1])]
  {
  }

  /**
   * In compile mode, when every remaining argument is a file to stage, the
   * n-th file is the n-th task, with the n-th staging file's handle, and
   * the compiler arguments are the "--b4" value and that staging file's
   * path, file after file.
   */
  lemma {:induction false} StageCompileFiles(o: Options, rest: seq<string>, env: Env)
    requires !o.transpile && |rest| <= |env.staging|
    requires forall a :: a in rest ==> CompileFile(a, env)
    ensures StageArgs(o, rest, env).entries == StagedEntries(env.staging, rest)
    ensures StageArgs(o, rest, env).args == StagedArgs(o.b4, env.staging, |rest|)
    decreases |rest|
  {
    if rest != [] {
      var n := |rest| - 1;
      var init := rest[..n];
      assert forall a :: a in init ==> a in rest;
      StageCompileFiles(o, init, env);
      StageCompileLast(o, rest, env);
      StagedExtend(env.staging, rest, o.b4, StageArgs(o, init, env), StageArgs(o, rest, env));
    }
  }

  /** Staging one more file extends the staged tasks and arguments by that file's. */
  lemma StagedExtend(staging: seq<TmpFile>, files: seq<string>, b4: string, before: Staged, after: Staged)
    requires 0 < |files| <= |staging|
    requires before.entries == StagedEntries(staging, files[..|files| - 1])
    requires before.args == StagedArgs(b4, staging, |files| - 1)
    requires after == Staged(before.entries + [Entry(staging[|before.entries|].isOpen, files[|files| - 1])],
                             before.args + [b4, staging[|before.entries|].path])
    ensures after.entries == StagedEntries(staging, files)
    ensures after.args == StagedArgs(b4, staging, |files|)
  {
    StagedEntriesAppend(staging, files);
  }

  /** The remaining arguments compile mode stages, in order. */
  function Sources(rest: seq<string>, env: Env): (files: seq<string>)
    ensures |files| <= |rest|
  {
    if rest == [] then []
    else
      var a := rest[|rest| - 1];
      Sources(rest[..|rest| - 1], env) + (if CompileFile(a, env) then [a] else [])
  }

  /** The remaining arguments the transpile modes convert, in order. */
  function TranspileSources(rest: seq<string>, env: Env): (files: seq<string>)
    ensures |files| <= |rest|
  {
    if rest == [] then []
    else
      var a := rest[|rest| - 1];
      TranspileSources(rest[..|rest| - 1], env) + (if a in env.regular && TranspileAccepts(Extension(a)) then [a] else [])
  }

  /** The remaining arguments that are not regular files, in order. */
  function NotFiles(rest: seq<string>, env: Env): seq<string>
  {
    if rest == [] then []
    else
      var a := rest[|rest| - 1];
      NotFiles(rest[..|rest| - 1], env) + (if a !in env.regular then [a] else [])
  }

  /**
   * The compile-mode compiler arguments of the remaining arguments `rest`, in
   * order: a path that is not a regular file as it is, an accepted source as
   * the "--b4" value and the path of the staging file whose index is the
   * number of sources before it, any other regular file not at all.
   */
  function CompileArgs(b4: string, staging: seq<TmpFile>, rest: seq<string>, env: Env): seq<string>
    requires |rest| <= |staging|
  {
    if rest == [] then []
    else
      var init := rest[..|rest| - 1];
      var a := rest[|rest| - 1];
      CompileArgs(b4, staging, init, env) +
        (if a !in env.regular then [a]
         else if CompileFile(a, env) then [b4, staging[|Sources(init, env)|].path]
         else [])
  }

  /** The transpile-mode tasks of `files`: each file opened for update or not. */
  function UpdateEntries(files: seq<string>, env: Env): seq<Entry>
  {
    seq(|files|, i requires 0 <= i < |files| => Entry(files[i] in env.updatable, files[i]))
  }

  /**
   * Compile mode, for any remaining arguments: the tasks are the sources
   * compile mode accepts, in order, the n-th with the n-th staging file;
   * every other argument makes no task.
   */
  lemma {:induction false} StageCompileAll(o: Options, rest: seq<string>, env: Env)
    requires !o.transpile && |rest| <= |env.staging|
    ensures StageArgs(o, rest, env).entries == StagedEntries(env.staging, Sources(rest, env))
    ensures StageArgs(o, rest, env).args == CompileArgs(o.b4, env.staging, rest, env)
    decreases |rest|
  {
    if rest != [] {
      var n := |rest| - 1;
      var init := rest[..n];
      var a := rest[n];
      StageCompileAll(o, init, env);
      StageArgsUnfold(o, rest, env);
      var before := StageArgs(o, init, env);
      CompileStep(o, before, a, env);
      assert rest == init + [a];
      SourcesStep(init, a, env);
      StagedEntriesStep(env.staging, Sources(init, env), a, CompileFile(a, env), before.entries,
                        StageArgs(o, rest, env).entries, Sources(rest, env));
      CompileArgsStep(o.b4, env.staging, init, a, env);
    }
  }

  /**
   * One argument in compile mode: an accepted source adds its task with the
   * next staging file, and the "--b4" value and that staging file's path to
   * the compiler arguments; a path that is not a regular file goes to the
   * compiler arguments unchanged; any other regular file is dropped.
   */
  lemma CompileStep(o: Options, s: Staged, a: string, env: Env)
    requires !o.transpile && |s.entries| < |env.staging|
    ensures StageStep(o, s, a, env).entries ==
      s.entries + (if CompileFile(a, env) then [Entry(env.staging[|s.entries|].isOpen, a)] else [])
    ensures StageStep(o, s, a, env).args ==
      s.args + (if a !in env.regular then [a]
                else if CompileFile(a, env) then [o.b4, env.staging[|s.entries|].path]
                else [])
  {
  }

  lemma CompileArgsStep(b4: string, staging: seq<TmpFile>, init: seq<string>, a: string, env: Env)
    requires |init| < |staging|
    ensures CompileArgs(b4, staging, init + [a], env) ==
      CompileArgs(b4, staging, init, env) +
        (if a !in env.regular then [a]
         else if CompileFile(a, env) then [b4, staging[|Sources(init, env)|].path]
         else [])
  {
    assert (init + [a])[..|init|] == init;
  }

  lemma SourcesStep(init: seq<string>, a: string, env: Env)
    ensures Sources(init + [a], env) == Sources(init, env) + (if CompileFile(a, env) then [a] else [])
  {
    assert (init + [a])[..|init|] == init;
  }

  lemma StagedEntriesStep(staging: seq<TmpFile>, files: seq<string>, a: string, taken: bool,
                          before: seq<Entry>, after: seq<Entry>, files': seq<string>)
    requires |files| < |staging|
    requires before == StagedEntries(staging, files)
    requires after == before + (if taken then [Entry(staging[|before|].isOpen, a)] else [])
    requires files' == files + (if taken then [a] else [])
    ensures after == StagedEntries(staging, files')
  {
  }

  /**
   * The transpile modes, for any remaining arguments: the tasks are the
   * regular ".c"/".C" files, in order, each opened for update or not; the
   * compiler arguments are the paths that are not regular files, in order;
   * every other regular file is dropped.
   */
  lemma {:induction false} StageTranspileAll(o: Options, rest: seq<string>, env: Env)
    requires o.transpile && |rest| <= |env.staging|
    ensures StageArgs(o, rest, env).entries == UpdateEntries(TranspileSources(rest, env), env)
    ensures StageArgs(o, rest, env).args == NotFiles(rest, env)
    decreases |rest|
  {
    if rest != [] {
      var n := |rest| - 1;
      var init := rest[..n];
      var a := rest[n];
      StageTranspileAll(o, init, env);
      StageArgsUnfold(o, rest, env);
      var before := StageArgs(o, init, env);
      var taken := a in env.regular && TranspileAccepts(Extension(a));
      TranspileStep(o, before, a, env);
      assert rest == init + [a];
      TranspileSourcesStep(init, a, env);
      NotFilesStep(init, a, env);
      UpdateEntriesStep(TranspileSources(init, env), a, taken, env, before.entries,
                        StageArgs(o, rest, env).entries, TranspileSources(rest, env));
    }
  }

  /** One argument in a transpile mode: an accepted regular file adds its task, a non-file its path. */
  lemma TranspileStep(o: Options, s: Staged, a: string, env: Env)
    requires o.transpile && |s.entries| < |env.staging|
    ensures StageStep(o, s, a, env).entries ==
      s.entries + (if a in env.regular && TranspileAccepts(Extension(a)) then [Entry(a in env.updatable, a)] else [])
    ensures StageStep(o, s, a, env).args == s.args + (if a !in env.regular then [a] else [])
  {
  }

  lemma TranspileSourcesStep(init: seq<string>, a: string, env: Env)
    ensures TranspileSources(init + [a], env) ==
      TranspileSources(init, env) + (if a in env.regular && TranspileAccepts(Extension(a)) then [a] else [])
  {
    assert (init + [a])[..|init|] == init;
  }

  lemma NotFilesStep(init: seq<string>, a: string, env: Env)
    ensures NotFiles(init + [a], env) == NotFiles(init, env) + (if a !in env.regular then [a] else [])
  {
    assert (init + [a])[..|init|] == init;
  }

  lemma UpdateEntriesStep(files: seq<string>, a: string, taken: bool, env: Env,
                          before: seq<Entry>, after: seq<Entry>, files': seq<string>)
    requires before == UpdateEntries(files, env)
    requires after == before + (if taken then [Entry(a in env.updatable, a)] else [])
    requires files' == files + (if taken then [a] else [])
    ensures after == UpdateEntries(files', env)
  {
  }

  /** What became of one task. */
  datatype TaskResult =
    | Skipped                  // a file the task needs did not open; the task is passed over
    | Emptied                  // the new output file was opened, and so emptied, but the input had not opened
    | Failed                   // the destination could not be reopened for writing
    | NotRun                   // debug-only: the task does nothing
    | Wrote(text: seq<char>)   // the destination now holds `text`

  /** Exit code, task results in order, and the command line run, if any. */
  datatype Outcome = Outcome(exit: int, results: seq<TaskResult>, executed: Option<string>)

  /** In-place mode, one task: the file is replaced by its own transpose. */
  function InPlaceTask(e: Entry, env: Env, debugOnly: bool): (r: TaskResult)
    ensures r.Wrote? <==> e.isOpen && !debugOnly && e.path in env.reopenable
    ensures r.Wrote? ==> r.text == TransposeText(Content(env, e.path))
    ensures r != Emptied
  {
    if !e.isOpen then Skipped
    else if debugOnly then NotRun
    else if e.path !in env.reopenable then Failed
    else Wrote(TransposeText(Content(env, e.path)))
  }

  /** New-file mode, one task: the output file is opened before the input is checked. */
  function NewFileTask(e: Entry, env: Env, debugOnly: bool): (r: TaskResult)
    ensures r.Wrote? <==> e.isOpen && !debugOnly && OutputPath(e.path) in env.writable
    ensures r.Wrote? ==> r.text == TransposeText(Content(env, e.path))
    ensures r == Emptied <==> !e.isOpen && !debugOnly && OutputPath(e.path) in env.writable
    ensures r != Failed
  {
    if debugOnly then NotRun
    else if OutputPath(e.path) !in env.writable then Skipped
    else if !e.isOpen then Emptied
    else Wrote(TransposeText(Content(env, e.path)))
  }

  /** Compile mode, one task: the original is opened for reading and its transpose goes to the staging file. */
  function CompileTask(e: Entry, env: Env): (r: TaskResult)
    ensures r.Wrote? <==> e.isOpen && e.path in env.readable
    ensures r.Wrote? ==> r.text == TransposeText(Content(env, e.path))
    ensures !r.Wrote? ==> r == Skipped
  {
    if e.path !in env.readable || !e.isOpen then Skipped
    else Wrote(TransposeText(Content(env, e.path)))
  }

  /** The file system after a task: a written file holds the new text. */
  function After(env: Env, path: string, r: TaskResult): Env
  {
    if r.Wrote? then env.(contents := env.contents[path := r.text]) else env
  }

  /** Task results so far, and the file system they leave behind. */
  datatype Run = Run(results: seq<TaskResult>, env: Env)

  /**
   * In-place mode over `entries`: each task reads its file as the tasks
   * before it left it, so a file named twice is converted twice.
   */
  function InPlaceRun(entries: seq<Entry>, env: Env, debugOnly: bool): (r: Run)
    ensures |r.results| == |entries|
  {
    if entries == [] then Run([], env)
    else
      var before := InPlaceRun(entries[..|entries| - 1], env, debugOnly);
      var e := entries[|entries| - 1];
      var t := InPlaceTask(e, before.env, debugOnly);
      Run(before.results + [t], After(before.env, e.path, t))
  }

  function InPlaceOutcome(entries: seq<Entry>, env: Env, debugOnly: bool): Outcome
  {
    Outcome(0, InPlaceRun(entries, env, debugOnly).results, None)
  }

  function NewFileOutcome(entries: seq<Entry>, env: Env, debugOnly: bool): Outcome
  {
    Outcome(0, seq(|entries|, i requires 0 <= i < |entries| => NewFileTask(entries[i], env, debugOnly)), None)
  }

  /** The index of the first compile-mode task that cannot be staged, |entries| when there is none. */
  function FirstFailure(entries: seq<Entry>, env: Env): (k: nat)
    ensures k <= |entries|
    ensures forall i :: 0 <= i < k ==> CompileTask(entries[i], env).Wrote?
    ensures k < |entries| ==> CompileTask(entries[k], env) == Skipped
  {
    if entries == [] then 0
    else if !CompileTask(entries[0], env).Wrote? then 0
    else 1 + FirstFailure(entries[1..], env)
  }

  function CompileOutcome(entries: seq<Entry>, nativeArgs: seq<string>, compiler: string,
                          env: Env, debugOnly: bool, status: int): Outcome
  {
    if debugOnly then Outcome(0, seq(|entries|, i => NotRun), None)
    else
      var k := FirstFailure(entries, env);
      var n := if k < |entries| then k + 1 else |entries|;
      var results := seq(n, i requires 0 <= i < n => CompileTask(entries[i], env));
      if k < |entries| then Outcome(-1, results, None)
      else Outcome(ExitCode(status), results, Some(Command(compiler, nativeArgs)))
  }

  /** In-place mode: every task is tried; a failing one is passed over; the exit code is 0. */
  method RunInPlace(entries: seq<Entry>, env: Env, debugOnly: bool) returns (out: Outcome)
    ensures out == InPlaceOutcome(entries, env, debugOnly)
  {
    var results: seq<TaskResult> := [];
    var files := env;
    for i := 0 to |entries|
      invariant Run(results, files) == InPlaceRun(entries[..i], env, debugOnly)
    {
      var e := entries[i];
      var r: TaskResult;
      if !e.isOpen {
        r := Skipped;
      } else if debugOnly {
        r := NotRun;
      } else {
        var written := TranspileFile(Content(files, e.path), true, e.path in files.reopenable);
        if written.Some? {
          r := Wrote(written.value);
          files := files.(contents := files.contents[e.path := written.value]);
        } else {
          r := Failed;
        }
      }
      results := results + [r];
      assert entries[..i + 1][..i] == entries[..i];
    }
    assert entries[..|entries|] == entries;
    out := Outcome(0, results, None);
  }

  /** New-file mode: every task is tried; a failing one is passed over; the exit code is 0. */
  method RunNewFile(entries: seq<Entry>, env: Env, debugOnly: bool) returns (out: Outcome)
    ensures out == NewFileOutcome(entries, env, debugOnly)
  {
    var results: seq<TaskResult> := [];
    for i := 0 to |entries|
      invariant |results| == i
      invariant forall j :: 0 <= j < i ==> results[j] == NewFileTask(entries[j], env, debugOnly)
    {
      var e := entries[i];
      var output := OutputPath(e.path);
      var r: TaskResult;
      if debugOnly {
        r := NotRun;
      } else if output !in env.writable {
        r := Skipped;
      } else if !e.isOpen {
        r := Emptied;
      } else {
        var written := TranspileFile(Content(env, e.path), false, true);
        r := Wrote(written.value);
      }
      results := results + [r];
    }
    out := Outcome(0, results, None);
  }

  /**
   * Compile mode: every task is staged in order, and the first that cannot
   * be ends the run with -1. When all are staged, the command line is built
   * and run, and its status gives the exit code. Debug-only tries no task,
   * runs nothing and exits with 0.
   */
  method RunCompile(entries: seq<Entry>, nativeArgs: seq<string>, compiler: string,
                    env: Env, debugOnly: bool, status: int) returns (out: Outcome)
    ensures out == CompileOutcome(entries, nativeArgs, compiler, env, debugOnly, status)
  {
    var results: seq<TaskResult> := [];
    if debugOnly {
      for i := 0 to |entries|
        invariant results == seq(i, j => NotRun)
      {
        results := results + [NotRun];
      }
      return Outcome(0, results, None);
    }
    ghost var k := FirstFailure(entries, env);
    for i := 0 to |entries|
      invariant i <= k
      invariant |results| == i
      invariant forall j :: 0 <= j < i ==> results[j] == CompileTask(entries[j], env)
    {
      var e := entries[i];
      if e.path !in env.readable || !e.isOpen {
        results := results + [Skipped];
        assert k == i;
        return Outcome(-1, results, None);
      }
      var written := TranspileFile(Content(env, e.path), false, true);
      results := results + [Wrote(written.value)];
    }
    var command := BuildCommand(compiler, nativeArgs);
    out := Outcome(ExitCode(status), results, Some(command));
  }

  /**
   * The whole program for the arguments `args`, the detected compiler, the
   * file system and the command's status. A command runs only in compile
   * mode, and then the exit code comes from its status; otherwise the exit
   * code is 0 or -1. No argument gives more than one task.
   */
  function Program(args: seq<string>, found: Detected, env: Env, status: int): (r: Outcome)
    requires ValueFollows(args, 0) && |args| <= |env.staging|
    ensures r.executed.Some? ==> r.exit == ExitCode(status)
    ensures r.executed.Some? ==> Scan(args, 0, Defaults).Parsed? && !Scan(args, 0, Defaults).opt.transpile
    ensures r.executed.None? ==> r.exit == 0 || r.exit == -1
    ensures |r.results| <= |args|
  {
    match Scan(args, 0, Defaults)
    case ShowHelp => Outcome(0, [], None)
    case ShowVersion => Outcome(0, [], None)
    case Parsed(given, next) =>
      if Conflict(given) then Outcome(-1, [], None)
      else
        var o := ResolveCompiler(given, found);
        var s := StageArgs(o, args[next..], env);
        if o.transpile && o.inPlace then InPlaceOutcome(s.entries, env, o.debugOnly)
        else if o.transpile then NewFileOutcome(s.entries, env, o.debugOnly)
        else CompileOutcome(s.entries, s.args, o.setCompiler, env, o.debugOnly, status)
  }

  /**
   * The program: options, conflict check, compiler choice, staging of the
   * remaining arguments, and the run in the selected mode.
   */
  method Ltr(args: seq<string>, found: Detected, env: Env, status: int) returns (out: Outcome)
    requires ValueFollows(args, 0) && |args| <= |env.staging|
    ensures out == Program(args, found, env, status)
  {
    var parsed := ParseOptions(args);
    if !parsed.Parsed? {
      return Outcome(0, [], None);
    }
    var given := parsed.opt;
    if |given.setCompiler| != 0 && given.transpile {
      return Outcome(-1, [], None);
    }
    if !given.transpile && given.inPlace {
      return Outcome(-1, [], None);
    }
    var o := ResolveCompiler(given, found);
    var entries, nativeArgs := Stage(o, args[parsed.next..], env);
    if o.transpile {
      if o.inPlace {
        out := RunInPlace(entries, env, o.debugOnly);
      } else {
        out := RunNewFile(entries, env, o.debugOnly);
      }
    } else {
      out := RunCompile(entries, nativeArgs, o.setCompiler, env, o.debugOnly, status);
    }
  }

  /**
   * Compile mode runs the command exactly when every task is staged; when
   * one is not, the run stops there with -1: the tasks before it were
   * staged, it was skipped, and none after it was tried.
   */
  lemma CompileRunsIffAllStaged(entries: seq<Entry>, nativeArgs: seq<string>, compiler: string, env: Env, status: int)
    ensures var out := CompileOutcome(entries, nativeArgs, compiler, env, false, status);
      (forall j :: 0 <= j < |out.results| ==> j < |entries| && out.results[j] == CompileTask(entries[j], env)) &&
      (out.executed.Some? <==> forall i :: 0 <= i < |entries| ==> CompileTask(entries[i], env).Wrote?) &&
      (out.executed.Some? ==> out.executed == Some(Command(compiler, nativeArgs)) && out.exit == ExitCode(status) &&
                              |out.results| == |entries|) &&
      (out.executed.None? ==> out.exit == -1 && 0 < |out.results| <= |entries| &&
                              out.results[|out.results| - 1] == Skipped &&
                              forall j :: 0 <= j < |out.results| - 1 ==> out.results[j].Wrote?)
  {
    var k := FirstFailure(entries, env);
    if k < |entries| {
      assert !CompileTask(entries[k], env).Wrote?;
    }
  }

  /** Debug-only compile mode tries no task, runs nothing and exits with 0. */
  lemma CompileDebugOnly(entries: seq<Entry>, nativeArgs: seq<string>, compiler: string, env: Env, status: int)
    ensures var out := CompileOutcome(entries, nativeArgs, compiler, env, true, status);
      out.exit == 0 && out.executed == None && |out.results| == |entries| &&
      forall i :: 0 <= i < |entries| ==> out.results[i] == NotRun
  {
  }

  /** The transpose modes pass over a failing file and go on with the next: they end with 0 and run no command. */
  lemma TransposeModesExit(args: seq<string>, found: Detected, env: Env, status: int)
    requires ValueFollows(args, 0) && |args| <= |env.staging|
    requires Scan(args, 0, Defaults).Parsed? && Scan(args, 0, Defaults).opt.transpile
    ensures Program(args, found, env, status).exit == 0 <==> !Conflict(Scan(args, 0, Defaults).opt)
    ensures Program(args, found, env, status).executed == None
    ensures !Conflict(Scan(args, 0, Defaults).opt) ==>
      |Program(args, found, env, status).results| == |StageArgs(ResolveCompiler(Scan(args, 0, Defaults).opt, found), args[Scan(args, 0, Defaults).next..], env).entries|
  {
  }

  /**
   * Options that make a refused combination end the program with -1: no
   * task is tried and no command runs, whatever arguments follow them.
   */
  lemma RefusedConflict(args: seq<string>, found: Detected, env: Env, status: int)
    requires ValueFollows(args, 0) && |args| <= |env.staging|
    requires Scan(args, 0, Defaults).Parsed? && Conflict(Scan(args, 0, Defaults).opt)
    ensures Program(args, found, env, status) == Outcome(-1, [], None)
  {
  }

  /** "--in-place" without "--transpile", followed by files, ends with -1 before any file is touched. */
  lemma InPlaceRefused(rest: seq<string>, found: Detected, env: Env, status: int)
    requires rest == [] || !Recognised(rest[0])
    requires |rest| + 1 <= |env.staging|
    ensures ValueFollows(["--in-place"] + rest, 0)
    ensures Program(["--in-place"] + rest, found, env, status) == Outcome(-1, [], None)
  {
    InPlaceWithoutTranspile(rest);
    RefusedConflict(["--in-place"] + rest, found, env, status);
  }

  /** "--set-compiler gcc --transpile" followed by files ends with -1 before any file is touched. */
  lemma RefusedBeforeFiles(rest: seq<string>, found: Detected, env: Env, status: int)
    requires rest == [] || !Recognised(rest[0])
    requires |rest| + 3 <= |env.staging|
    ensures ValueFollows(["--set-compiler", "gcc", "--transpile"] + rest, 0)
    ensures Program(["--set-compiler", "gcc", "--transpile"] + rest, found, env, status) == Outcome(-1, [], None)
  {
    SetCompilerWithTranspile(rest);
  }

  /**
   * "ltr_c f1 f2" on two readable C sources when the probe finds gcc
   * (whether or not clang is there too): both files are staged behind gcc's
   * "-x c" prefix, each staging file receives the transpose of its source,
   * and the command's status decides the exit code.
   */
  lemma CompileTwoFiles(f1: string, f2: string, t1: string, t2: string, env: Env, status: int, clangFound: bool)
    requires !Recognised(f1)
    requires CompileFile(f1, env) && CompileFile(f2, env) && f1 in env.readable && f2 in env.readable
    requires env.staging == [TmpFile(true, t1), TmpFile(true, t2)] && t1 != "" && t2 != ""
    ensures ValueFollows([f1, f2], 0)
    ensures Program([f1, f2], Probe(true, clangFound), env, status) ==
      Outcome(ExitCode(status), [Wrote(TransposeText(Content(env, f1))), Wrote(TransposeText(Content(env, f2)))],
              Some("gcc -x c " + t1 + " -x c " + t2))
  {
    assert Probe(true, clangFound) == Detected("gcc", "-x c");
    TwoFilesStaged(f1, f2, t1, t2, env, status);
    TwoFilesRun(f1, f2, t1, t2, env, status);
    CompileCommandExample(t1, t2);
  }

  lemma TwoFilesStaged(f1: string, f2: string, t1: string, t2: string, env: Env, status: int)
    requires !Recognised(f1)
    requires CompileFile(f1, env) && CompileFile(f2, env)
    requires env.staging == [TmpFile(true, t1), TmpFile(true, t2)]
    ensures ValueFollows([f1, f2], 0)
    ensures Program([f1, f2], Detected("gcc", "-x c"), env, status) ==
      CompileOutcome([Entry(true, f1), Entry(true, f2)], ["-x c", t1, "-x c", t2], "gcc", env, false, status)
  {
    var args := [f1, f2];
    assert ResolveCompiler(Defaults, Detected("gcc", "-x c")) == Defaults.(setCompiler := "gcc", b4 := "-x c") by {
      assert Defaults.b4 + "-x c" == "-x c";
    }
    TwoFilesStaging(f1, f2, t1, t2, env);
    assert Scan(args, 0, Defaults) == Parsed(Defaults, 0);
    assert args[0..] == args;
  }

  lemma TwoFilesStaging(f1: string, f2: string, t1: string, t2: string, env: Env)
    requires CompileFile(f1, env) && CompileFile(f2, env)
    requires env.staging == [TmpFile(true, t1), TmpFile(true, t2)]
    ensures StageArgs(Defaults.(setCompiler := "gcc", b4 := "-x c"), [f1, f2], env) ==
      Staged([Entry(true, f1), Entry(true, f2)], ["-x c", t1, "-x c", t2])
  {
    var o := Defaults.(setCompiler := "gcc", b4 := "-x c");
    StageCompileFiles(o, [f1, f2], env);
    TwoStagingFiles(f1, f2, t1, t2, env.staging);
  }

  lemma TwoStagingFiles(f1: string, f2: string, t1: string, t2: string, staging: seq<TmpFile>)
    requires staging == [TmpFile(true, t1), TmpFile(true, t2)]
    ensures StagedEntries(staging, [f1, f2]) == [Entry(true, f1), Entry(true, f2)]
    ensures StagedArgs("-x c", staging, 2) == ["-x c", t1, "-x c", t2]
  {
    assert StagedArgs("-x c", staging, 1) == ["-x c", t1];
    assert StagedArgs("-x c", staging, 2) == ["-x c", t1] + ["-x c", t2];
  }

  lemma TwoFilesRun(f1: string, f2: string, t1: string, t2: string, env: Env, status: int)
    requires f1 in env.readable && f2 in env.readable
    ensures CompileOutcome([Entry(true, f1), Entry(true, f2)], ["-x c", t1, "-x c", t2], "gcc", env, false, status) ==
      Outcome(ExitCode(status), [Wrote(TransposeText(Content(env, f1))), Wrote(TransposeText(Content(env, f2)))],
              Some(Command("gcc", ["-x c", t1, "-x c", t2])))
  {
    var entries := [Entry(true, f1), Entry(true, f2)];
    CompileRunsIffAllStaged(entries, ["-x c", t1, "-x c", t2], "gcc", env, status);
    assert CompileTask(entries[0], env).Wrote? && CompileTask(entries[1], env).Wrote?;
  }

  /**
   * A file holding a rectangular grid and named twice in in-place mode is
   * converted twice: the second task reads the first one's output and
   * writes the original text back.
   */
  lemma InPlaceNamedTwice(e: Entry, env: Env, lines: seq<seq<char>>)
    requires e.isOpen && e.path in env.reopenable
    requires Rectangular(lines) && NoNewline(lines) && Content(env, e.path) == Terminated(lines, '\n')
    ensures InPlaceRun([e, e], env, false).results ==
      [Wrote(TransposeText(Content(env, e.path))), Wrote(Content(env, e.path))]
    ensures Content(InPlaceRun([e, e], env, false).env, e.path) == Content(env, e.path)
  {
    var text := Content(env, e.path);
    InPlaceOnce(e, env);
    var first := InPlaceRun([e], env, false);
    assert [e, e][..1] == [e];
    TransposeTextTwice(lines);
    assert InPlaceTask(e, first.env, false) == Wrote(text);
  }

  /** One in-place task on a file that opens and reopens writes the file's transpose to it. */
  lemma InPlaceOnce(e: Entry, env: Env)
    requires e.isOpen && e.path in env.reopenable
    ensures InPlaceRun([e], env, false).results == [Wrote(TransposeText(Content(env, e.path)))]
    ensures Content(InPlaceRun([e], env, false).env, e.path) == TransposeText(Content(env, e.path))
    ensures InPlaceRun([e], env, false).env.reopenable == env.reopenable
  {
    assert [e][..0] == [];
    assert InPlaceRun([], env, false) == Run([], env);
  }

  /**
   * When no file is named twice, every in-place task reads its file as it
   * was before the run, and the run leaves each file as its own task left it.
   */
  lemma {:induction false} InPlaceDistinct(entries: seq<Entry>, env: Env, debugOnly: bool)
    requires forall i, j :: 0 <= i < j < |entries| ==> entries[i].path != entries[j].path
    ensures forall i :: 0 <= i < |entries| ==> InPlaceRun(entries, env, debugOnly).results[i] == InPlaceTask(entries[i], env, debugOnly)
    decreases |entries|
  {
    if entries != [] {
      var n := |entries| - 1;
      var init := entries[..n];
      InPlaceDistinct(init, env, debugOnly);
      InPlaceUntouched(init, env, debugOnly);
      var before := InPlaceRun(init, env, debugOnly);
      var e := entries[n];
      assert Content(before.env, e.path) == Content(env, e.path) by {
        assert forall i :: 0 <= i < n ==> init[i].path != e.path;
      }
      var run := InPlaceRun(entries, env, debugOnly);
      forall i | 0 <= i < |entries|
        ensures run.results[i] == InPlaceTask(entries[i], env, debugOnly)
      {
        if i < n {
          assert run.results[i] == before.results[i];
          assert init[i] == entries[i];
        }
      }
    }
  }

  /** An in-place run changes no file that none of its tasks names, and never the set of files that reopen. */
  lemma {:induction false} InPlaceUntouched(entries: seq<Entry>, env: Env, debugOnly: bool)
    ensures InPlaceRun(entries, env, debugOnly).env.reopenable == env.reopenable
    ensures forall p :: (forall i :: 0 <= i < |entries| ==> entries[i].path != p) ==>
      Content(InPlaceRun(entries, env, debugOnly).env, p) == Content(env, p)
    decreases |entries|
  {
    if entries != [] {
      var n := |entries| - 1;
      var init := entries[..n];
      InPlaceUntouched(init, env, debugOnly);
      var run := InPlaceRun(entries, env, debugOnly);
      forall p | forall i :: 0 <= i < |entries| ==> entries[i].path != p
        ensures Content(run.env, p) == Content(env, p)
      {
        assert forall i :: 0 <= i < n ==> init[i].path != p;
        assert entries[n].path != p;
      }
    }
  }

}

=== FILE: transpose.dfy ===
/**
 * The transposition engine: a text is read into lines, and written back as
 * its column-major transpose, padded with spaces, one row per column index.
 */
module Transpose {
  import opened Lines
  import opened Optional

  /** Length of the longest line, 0 when there are none. */
  function MaxWidth(lines: seq<seq<char>>): (w: nat)
    ensures forall i :: 0 <= i < |lines| ==> |lines[i]| <= w
    ensures lines == [] ==> w == 0
    ensures lines != [] ==> exists i :: 0 <= i < |lines| && |lines[i]| == w
  {
    if lines == [] then 0
    else
      var before := MaxWidth(lines[..|lines| - 1]);
      var last := |lines[|lines| - 1]|;
      if last > before then last else before
  }

  /** Row `r`, column `c` of the transpose: character `r` of line `c`, or a space past its end. */
  function Cell(lines: seq<seq<char>>, r: nat, c: nat): char
    requires c < |lines|
  {
    if r < |lines[c]| then lines[c][r] else ' '
  }

  function Row(lines: seq<seq<char>>, r: nat): seq<char>
  {
    seq(|lines|, c requires 0 <= c < |lines| => Cell(lines, r, c))
  }

  /** The padded column-major transpose: MaxWidth(lines) rows of |lines| characters. */
  function Transposed(lines: seq<seq<char>>): seq<seq<char>>
  {
    seq(MaxWidth(lines), r requires 0 <= r < MaxWidth(lines) => Row(lines, r))
  }

  /** The text a transposition writes for the text `source`. */
  function TransposeText(source: seq<char>): seq<char>
  {
    Terminated(Transposed(Split(source, '\n')), '\n')
  }

  /** All lines share one positive length, and there is at least one line. */
  predicate Rectangular(lines: seq<seq<char>>)
  {
    |lines| > 0 && |lines[0]| > 0 && forall c :: 0 <= c < |lines| ==> |lines[c]| == |lines[0]|
  }

  predicate NoNewline(lines: seq<seq<char>>)
  {
    forall i :: 0 <= i < |lines| ==> '\n' !in lines[i]
  }

  /** Shape and cell formula of the transpose, for ragged lines too. */
  lemma TransposedShape(lines: seq<seq<char>>)
    ensures |Transposed(lines)| == MaxWidth(lines)
    ensures forall r :: 0 <= r < MaxWidth(lines) ==> |Transposed(lines)[r]| == |lines|
    ensures forall r, c :: 0 <= r < MaxWidth(lines) && 0 <= c < |lines| ==>
      Transposed(lines)[r][c] == if r < |lines[c]| then lines[c][r] else ' '
  {
  }

  /** Rows of a transpose hold only characters of the lines and spaces. */
  lemma TransposedNoNewline(lines: seq<seq<char>>)
    requires NoNewline(lines)
    ensures NoNewline(Transposed(lines))
  {
    var rows := Transposed(lines);
    forall r | 0 <= r < |rows|
      ensures '\n' !in rows[r]
    {
      forall c | 0 <= c < |lines|
        ensures rows[r][c] != '\n'
      {
        if r < |lines[c]| {
          assert lines[c][r] in lines[c];
        }
      }
    }
  }

  /** On a rectangular grid the transpose is an involution. */
  lemma TransposeTwice(lines: seq<seq<char>>)
    requires Rectangular(lines)
    ensures Transposed(Transposed(lines)) == lines
  {
    var w := |lines[0]|;
    assert MaxWidth(lines) == w;
    var rows := Transposed(lines);
    assert |rows| == w && |rows[0]| == |lines|;
    assert MaxWidth(rows) == |lines|;
    var back := Transposed(rows);
    assert |back| == |lines|;
    forall c | 0 <= c < |lines|
      ensures back[c] == lines[c]
    {
      assert |back[c]| == w;
      forall r | 0 <= r < w
        ensures back[c][r] == lines[c][r]
      {
        assert back[c][r] == rows[r][c];
      }
    }
  }

  /**
   * Transposing the text of a rectangular grid twice gives the text back:
   * the row-major to column-major conversion and the compile-mode staging
   * conversion undo each other on such files.
   */
  lemma TransposeTextTwice(lines: seq<seq<char>>)
    requires Rectangular(lines) && NoNewline(lines)
    ensures TransposeText(TransposeText(Terminated(lines, '\n'))) == Terminated(lines, '\n')
  {
    forall p | p in lines ensures '\n' !in p { }
    SplitTerminated(lines, '\n');
    var rows := Transposed(lines);
    TransposedNoNewline(lines);
    forall p | p in rows ensures '\n' !in p { }
    SplitTerminated(rows, '\n');
    TransposeTwice(lines);
  }

  /** Every output row is |lines| characters and a newline: MaxWidth * (|lines| + 1) characters. */
  lemma TransposeTextLength(source: seq<char>)
    ensures |TransposeText(source)| == MaxWidth(Split(source, '\n')) * (|Split(source, '\n')| + 1)
  {
    var lines := Split(source, '\n');
    TerminatedLength(Transposed(lines), |lines|, '\n');
  }

  /** Padding is not undone: ragged lines do not survive a round trip. */
  lemma RaggedExample()
    ensures Transposed(["abc", "de"]) == ["ad", "be", "c "]
    ensures Transposed(["ad", "be", "c "]) == ["abc", "de "]
  {
    var lines := ["abc", "de"];
    assert MaxWidth(lines[..1]) == 3;
    assert MaxWidth(lines) == 3;
    RowIs(lines, 0, "ad");
    RowIs(lines, 1, "be");
    RowIs(lines, 2, "c ");
    var rows := ["ad", "be", "c "];
    assert MaxWidth(rows[..1]) == 2;
    assert MaxWidth(rows[..2]) == 2;
    assert MaxWidth(rows) == 2;
    RowIs(rows, 0, "abc");
    RowIs(rows, 1, "de ");
  }

  lemma RowIs(lines: seq<seq<char>>, r: nat, expected: seq<char>)
    requires |expected| == |lines|
    requires forall c :: 0 <= c < |lines| ==> Cell(lines, r, c) == expected[c]
    ensures Row(lines, r) == expected
  {
  }

  /**
   * Reads the whole source into lines, character by character, keeping the
   * width of the widest line.
   */
  method ReadLines(source: seq<char>) returns (lines: seq<seq<char>>, maxSize: nat)
    ensures lines == Split(source, '\n')
    ensures maxSize == MaxWidth(lines)
  {
    lines, maxSize := [], 0;
    var buffer: seq<char> := [];
    var i := 0;
    assert buffer + source[i..] == source;
    while i < |source|
      invariant 0 <= i <= |source|
      invariant '\n' !in buffer
      invariant lines + Split(buffer + source[i..], '\n') == Split(source, '\n')
      invariant maxSize == MaxWidth(lines)
    {
      var c := source[i];
      if c == '\n' {
        ReadNewline(lines, buffer, source[i..]);
        MaxWidthAppend(lines, buffer);
        if |buffer| > maxSize {
          maxSize := |buffer|;
        }
        lines := lines + [buffer];
        buffer := [];
      } else {
        ReadOther(buffer, source[i..]);
        buffer := buffer + [c];
      }
      i := i + 1;
    }
    assert buffer + source[i..] == buffer;
    SplitFragment(buffer, '\n');
    if |buffer| != 0 {
      MaxWidthAppend(lines, buffer);
      if |buffer| > maxSize {
        maxSize := |buffer|;
      }
      lines := lines + [buffer];
    }
  }

  /** A newline read by the loop closes the buffer into a line. */
  lemma ReadNewline(lines: seq<seq<char>>, buffer: seq<char>, rest: seq<char>)
    requires '\n' !in buffer && rest != [] && rest[0] == '\n'
    ensures lines + Split(buffer + rest, '\n') == (lines + [buffer]) + Split([] + rest[1..], '\n')
  {
    SplitAtSep(buffer, rest, '\n');
    assert [] + rest[1..] == rest[1..];
  }

  /** Any other character read by the loop extends the buffer. */
  lemma ReadOther(buffer: seq<char>, rest: seq<char>)
    requires '\n' !in buffer && rest != [] && rest[0] != '\n'
    ensures '\n' !in buffer + [rest[0]] && buffer + rest == (buffer + [rest[0]]) + rest[1..]
  {
  }

  lemma MaxWidthAppend(lines: seq<seq<char>>, line: seq<char>)
    ensures MaxWidth(lines + [line]) == if |line| > MaxWidth(lines) then |line| else MaxWidth(lines)
  {
    assert (lines + [line])[..|lines|] == lines;
  }

  /** Writes one row per column index below maxSize, one character per line, each row ending in '\n'. */
  method Emit(lines: seq<seq<char>>, maxSize: nat) returns (out: seq<char>)
    requires maxSize == MaxWidth(lines)
    ensures out == Terminated(Transposed(lines), '\n')
  {
    ghost var rows := Transposed(lines);
    out := [];
    var column := 0;
    while column < maxSize
      invariant column <= maxSize
      invariant out == Terminated(rows[..column], '\n')
    {
      ghost var done := out;
      var j := 0;
      while j < |lines|
        invariant j <= |lines|
        invariant out == done + rows[column][..j]
      {
        var line := lines[j];
        if column >= |line| {
          out := out + [' '];
        } else {
          out := out + [line[column]];
        }
        assert rows[column][..j + 1] == rows[column][..j] + [rows[column][j]];
        j := j + 1;
      }
      out := out + ['\n'];
      assert rows[column][..j] == rows[column];
      TerminatedAppend(rows[..column], rows[column], '\n');
      assert rows[..column + 1] == rows[..column] + [rows[column]];
      column := column + 1;
    }
    assert rows[..column] == rows;
  }

  /**
   * Transposes the text `source`. When source and destination are the same
   * file, the destination is reopened for writing only after the source is
   * fully read; if that reopen fails, nothing is written and the result is
   * None. Otherwise the text written is the transpose of the whole source,
   * the same whether it goes to the source's own file or to another one.
   */
  method TranspileFile(source: seq<char>, inPlace: bool, reopenOk: bool) returns (written: Option<seq<char>>)
    ensures written.None? <==> inPlace && !reopenOk
    ensures written.Some? ==> written.value == TransposeText(source)
  {
    var lines, maxSize := ReadLines(source);
    if inPlace && !reopenOk {
      return None;
    }
    var out := Emit(lines, maxSize);
    written := Some(out);
  }
}
